=== FILE: README.md ===
# thermite: schedule resolution and heater control

A Dafny model of the core of thermite, a single-zone thermostat. The model covers four parts.

- **Schedule codecs.** A daily schedule packs 48 two-bit set-point indices, one per 30-minute interval, into 12 bytes. The weekly word packs seven two-bit daily-schedule indices, Sunday first, into 14 bits. These are the web client's `decodeBytes`/`encodeBytes` and `decode`/`encode`. Shifts and masks on non-negative values are modelled as halving and `% 4` (`BitFields`).
- **Validate-then-apply.** This is the update protocol (`updateFromJSONSafe`) of the set point, the daily schedule and the user-settings manager. A JSON document becomes a record of optional keys (`Field`: absent, present, or of the wrong JSON type). Validation decides whether the whole document is accepted. Only an accepted document is applied. `toJSON` writes a document that validates and re-applies to the same object.
- **Target resolution.** This is `getTargetTemperature`. The result is the vacation set point while on vacation. Otherwise the weekly word chooses a daily schedule for the weekday, and the daily schedule chooses the set point for the quarter hour. The temporary weekly word replaces the normal one while `temporaryStart <= t < temporaryEnd`.
- **Control tick.** This is `ThermiteInternalState::update`. It samples the DS18B20 thermometer on the 32-bit `millis()` clock: it requests a conversion every minute and reads it on every tick more than 375 ms after the request, until the next request. It survives the clock wrapping around. It then switches the heater with a hysteresis of 1.0 °C on each side of the target.

## Two revisions of the settings manager

The repository holds two revisions of `ThermiteUserSettingsManager` side by side.

- **The header, the Unity tests and the web client.** Daily schedules hold 12 bytes. There is a temperature override with `tempOverride`, `overrideStart` and `overrideEnd`.
- **The `.cpp` file.** Daily schedules hold 24 bytes, one per hour, in four 15-minute fields. There is a temporary weekly word with a time window, a vacation flag and a vacation set-point index.

The model keeps the two apart:

- The modules `SetPoints`, `DailySchedules` and `UserSettings`, with the codecs and the test cases in `SettingsCases`, model the 12-byte revision.
- The modules `Resolution` and `ManagerJson` model the `.cpp` revision on its own settings: its defaults, its `getTargetTemperature` and its key order in `toJSON`.

The 12-byte revision has no `getTargetTemperature` in the source, so none is modelled for it. `DailySchedules.Make` takes the number of bytes its constructor copies as a parameter: the `.cpp` constructor copies 24 (src/ThermiteUserSettingsManager.cpp:22-27), and the header's buffer and the tests hold 12.

The bodies of `validateJSON` and `updateFromJSON` are not in the source. The tests fix these cases:

- Names such as "foo2" and "way too cold" are accepted. The empty name and a 35-character name are rejected.
- Target temperatures 10.0, 15.0, 17.5 and 30.0 are accepted. -100.0 and 100.0 are rejected.
- A schedule array of 12 entries 0..11, and one of 12 zeros, is accepted. Arrays of 0, 11 or 13 entries, a non-array, and an entry of -1 or 256 are rejected.
- Set-point and daily-schedule arrays of four valid documents are accepted. Arrays of 0, 3 or 5 documents and a non-array are rejected.
- The weekly word 0x2a02 is accepted. 0x4000, 0x10000 and -1 are rejected.
- A strictly forward override window is accepted. A zero bound next to a non-zero one is rejected, and so is a start after the end.

The model turns these cases into rules, which goes beyond what the tests fix:

- A name must have 1..15 characters. The model counts characters, where `strncpy` in the constructors counts the bytes of the UTF-8 string.
- A temperature must lie in [10.0, 30.0], so 9.9 and 30.1 are rejected. The override temperature uses the same bounds.
- A schedule array must have exactly 12 entries, each in 0..255.
- The weekly word must be at most 0x3FFF.
- The override bounds must be both zero, or both non-zero with start <= end, so a window with start equal to end is accepted.
- A value of the wrong JSON type is rejected for every key. The tests reach this only for the three array keys.
- The override bounds are checked only when at least one of them is present. A missing bound is taken from the stored settings.
- Applying an unvalidated document truncates the name, as the tests show. It stores the weekly word as a `uint16_t`. It copies schedule entries positionally as bytes. It ignores keys of the wrong type.

Three facts of the code that the model keeps:

- The conversion delay is `750 / 2^(12 - 11)` = 375 ms (`TEMP_REQUEST_DELAY`).
- In the header revision and the tests, a schedule array in a document has 12 entries, one per byte of the schedule. The `.cpp` `toJSON` writes 24 (`ManagerJson.DailyScheduleJson`).
- The heater turns on at or below target − H and off at or above target + H: `_updateHeater` compares with `<=` and `>=`.

The web client's encoders combine the shifted indices with `|`, modelled by `BitFields.Or`. For indices in 0..3 no two share a bit, so the result equals their sum (`WeeklyScheduleCodec.EncodeIsSum`, `DailyScheduleCodec.SlotsByteIsSum`).

`ManagerJson.FromJson` reads a document laid out as the `.cpp` `toJSON` lays it out. The `.cpp` revision has no reader: `FromJson` is the reference reader behind `ManagerJson.ToJsonRoundTrip`, which shows that `toJSON` loses nothing.

One consequence of the code, stated as `InternalState.FirstTick`: the first tick requests a conversion and has no temperature yet. `_temp` still holds `DEVICE_DISCONNECTED_C`, which is −127. So with any target of −126 °C or more, which includes every set point in [10, 30], the heater turns on before the first reading. With a lower target other than −127 it stays off.

## Model

| member | source | states |
|---|---|---|
| BitFields.OrBit | web/src/lib/WeeklySchedule.js:18-24 | bit k of `Or(a, b)` is set exactly when bit k of a or of b is set |
| BitFields.OrAddDisjoint | web/src/lib/WeeklySchedule.js:18-24 | or-ing a value below 2^n with a multiple of 2^n adds them |
| BitFields.UnpackField | web/src/lib/WeeklySchedule.js:2-14 | entry k of the unpacked word is `(x >> 2k) & 3` |
| BitFields.UnpackPack | web/src/lib/WeeklySchedule.js:16-26 | unpacking a packing of two-bit entries gives the entries back |
| BitFields.PackUnpack | web/src/lib/WeeklySchedule.js:2-26 | packing the first n fields of a value below 4^n gives the value back |
| BitFields.UnpackDropsHighFields | web/src/lib/WeeklySchedule.js:2-14 | bits above the first n fields do not affect them |
| DailyScheduleCodec.DecodeBytes | web/src/lib/DailySchedule.js:2-13 | decoding yields four indices per byte |
| DailyScheduleCodec.DecodeBytesEntry | web/src/lib/DailySchedule.js:4-11 | decoded entry j is field j % 4 of byte j / 4, in 0..3 |
| DailyScheduleCodec.ByteFieldEntry | web/src/lib/DailySchedule.js:4-11 | field q of byte b is decoded entry 4b + q |
| DailyScheduleCodec.SlotsByteIsSum | web/src/lib/DailySchedule.js:19-23 | for four indices in 0..3, or-ing the shifted indices gives their weighted sum |
| DailyScheduleCodec.SlotsByteIsPack | web/src/lib/DailySchedule.js:19-23 | for four indices in 0..3, the encoded byte is their two-bit packing and below 256 |
| DailyScheduleCodec.EncodeBytesInRange | web/src/lib/DailySchedule.js:15-27 | 48 indices in 0..3 encode to 12 values, each a byte |
| DailyScheduleCodec.SlotsByteFields | web/src/lib/DailySchedule.js:19-23 | field k of an encoded byte is its k-th index |
| DailyScheduleCodec.DecodeEncode | web/src/lib/DailySchedule.js:2-27 | decodeBytes(encodeBytes(s)) == s for 48 two-bit indices |
| DailyScheduleCodec.EncodeDecode | web/src/lib/DailySchedule.js:2-27 | encodeBytes(decodeBytes(b)) == b for 12 bytes |
| DailyScheduleCodec.SlotLocation | src/ThermiteUserSettingsManager.h:33-39 | the interval of hour:minute is field (hour % 2) * 2 + minute / 30 of byte hour / 2 |
| DailyScheduleCodec.SlotConstantWithinInterval | src/ThermiteUserSettingsManager.h:33-39 | every minute of one 30-minute interval maps to the same index |
| WeeklyScheduleCodec.Decode | web/src/lib/WeeklySchedule.js:2-14 | the word decodes to seven indices, each in 0..3 |
| WeeklyScheduleCodec.DecodeIsUnpack | web/src/lib/WeeklySchedule.js:2-14 | decode is the generic two-bit unpacking of seven fields |
| WeeklyScheduleCodec.EncodeIsSum | web/src/lib/WeeklySchedule.js:16-26 | for seven indices in 0..3, or-ing the shifted indices gives their weighted sum |
| WeeklyScheduleCodec.EncodeIsPack | web/src/lib/WeeklySchedule.js:16-26 | for seven indices in 0..3, encode is the generic two-bit packing and at most 0x3FFF |
| WeeklyScheduleCodec.DecodeEncode | web/src/lib/WeeklySchedule.js:2-26 | decode(encode(w)) == w for seven two-bit indices |
| WeeklyScheduleCodec.EncodeDecode | web/src/lib/WeeklySchedule.js:2-26 | encode(decode(x)) == x for x <= 0x3FFF |
| WeeklyScheduleCodec.DecodeDropsHighBits | web/src/lib/WeeklySchedule.js:2-14 | bits 14 and up do not affect the decoded days |
| JsonIO.UpdateFromJsonSafe | src/JsonIO.h:10-16 | accepted exactly when validation passes; a rejected document changes nothing; an accepted one is applied |
| Names.ReadCString | src/ThermiteUserSettingsManager.h:10-13 | a C string read from a buffer is the prefix before its first NUL |
| Names.StoredName | src/ThermiteUserSettingsManager.cpp:6-10 | strncpy of 15 plus a terminator keeps exactly the first min(15, n) characters |
| SetPoints.Make | src/ThermiteUserSettingsManager.cpp:6-10 | the constructor keeps the name whole exactly when it has at most 15 characters, and stores the target |
| SetPoints.Validate | test/test_embedded/TestThermiteUserSettingsManager.cpp:17-90 | a document is accepted exactly when no key is mistyped, a present name has 1..15 characters and a present target lies in [10, 30] |
| SetPoints.Apply | test/test_embedded/TestThermiteUserSettingsManager.cpp:38-90 | present keys are stored, the name truncated to 15 characters; absent keys keep their values |
| SetPoints.UpdateSafe | test/test_embedded/TestThermiteUserSettingsManager.cpp:9-90 | all-or-nothing update that keeps a valid set point valid |
| SetPoints.ApplyKeepsValid | src/ThermiteUserSettingsManager.h:10-18 | applying a validated document to a valid set point keeps it valid |
| SetPoints.EmptyDocIsNoOp | test/test_embedded/TestThermiteUserSettingsManager.cpp:9-15 | the empty document is accepted and changes nothing |
| SetPoints.ToDocRoundTrip | test/test_embedded/TestThermiteUserSettingsManager.cpp:92-101 | toJSON of a valid set point validates and re-applies to the same set point |
| DailySchedules.Make | src/ThermiteUserSettingsManager.cpp:22-27 | the constructor keeps the name whole exactly when it has at most 15 characters, and copies the first `width` schedule bytes |
| DailySchedules.CopySchedule | test/test_embedded/TestThermiteUserSettingsManager.cpp:164-184 | byte i becomes array entry i modulo 256 where the array reaches, and is kept beyond it |
| DailySchedules.Validate | test/test_embedded/TestThermiteUserSettingsManager.cpp:103-306 | a document is accepted exactly when no key is mistyped, a present name has 1..15 characters and a present schedule has exactly 12 entries in 0..255 |
| DailySchedules.Apply | test/test_embedded/TestThermiteUserSettingsManager.cpp:284-306 | the truncated name and the array's bytes are stored; absent keys keep their values |
| DailySchedules.UpdateSafe | test/test_embedded/TestThermiteUserSettingsManager.cpp:103-306 | all-or-nothing update that keeps a valid daily schedule valid |
| DailySchedules.ApplyKeepsValid | src/ThermiteUserSettingsManager.h:27-45 | applying a validated document to a valid daily schedule keeps it valid |
| DailySchedules.EmptyDocIsNoOp | test/test_embedded/TestThermiteUserSettingsManager.cpp:103-114 | the empty document is accepted and changes nothing |
| DailySchedules.ToDocRoundTrip | test/test_embedded/TestThermiteUserSettingsManager.cpp:308-323 | toJSON of a valid daily schedule validates and re-applies to the same schedule |
| DailySchedules.SlotsOfValid | src/ThermiteUserSettingsManager.h:33-39 | a valid schedule decodes to 48 indices, each naming one of the four set points |
| UserSettings.Validate | test/test_embedded/TestThermiteUserSettingsManager.cpp:325-614 | a document is accepted exactly when no key is mistyped (tested for the array keys), present arrays hold four valid documents, the weekly word is in 0..0x3FFF, the override temperature is in [10, 30] and any given override bound leaves a window that is both zero or forward |
| UserSettings.Apply | test/test_embedded/TestThermiteUserSettingsManager.cpp:333-584 | a present setPoints or dailySchedules array is applied document i to entity i; the other present keys are stored, the weekly word as a uint16_t; absent keys keep their values |
| UserSettings.UpdateSafe | src/JsonIO.h:10-16 | the manager's update is all or nothing and keeps valid settings valid |
| UserSettings.ApplyKeepsValid | src/ThermiteUserSettingsManager.h:47-81 | applying a validated document to valid settings keeps them valid |
| UserSettings.EmptyDocIsNoOp | test/test_embedded/TestThermiteUserSettingsManager.cpp:325-331 | the empty document is accepted and changes nothing |
| UserSettings.OverrideWindowOfValid | src/ThermiteUserSettingsManager.h:76-81 | in valid settings start and end are zero together, and an override in effect has start <= end |
| UserSettings.ToDocRoundTrip | test/test_embedded/TestThermiteUserSettingsManager.cpp:616-650 | toJSON of valid settings validates against any valid manager and re-applies to the same settings |
| UserSettings.ApplySetPointDocs | test/test_embedded/TestThermiteUserSettingsManager.cpp:333-358 | four set points written by toJSON are accepted and replace the manager's set points |
| UserSettings.ApplyDailyScheduleDocs | test/test_embedded/TestThermiteUserSettingsManager.cpp:417-445 | four daily schedules written by toJSON are accepted and replace the manager's schedules |
| UserSettings.WeeklyOfValid | src/ThermiteUserSettingsManager.h:58-66 | a valid weekly word decodes to seven indices naming existing daily schedules, and re-encodes to itself |
| SettingsCases.SetPointNameCases | test/test_embedded/TestThermiteUserSettingsManager.cpp:17-48 | "foo2" is accepted and stored; "" and a 35-character name are rejected, and the long name is stored as "this name is fa" |
| SettingsCases.SetPointTempCases | test/test_embedded/TestThermiteUserSettingsManager.cpp:50-90 | 15.0 and 17.5 are stored; -100.0 and 100.0 are rejected |
| SettingsCases.SetPointToDocCase | test/test_embedded/TestThermiteUserSettingsManager.cpp:92-101 | toJSON of ("foo", 16.0) carries both fields and validates |
| SettingsCases.DailyNameCases | test/test_embedded/TestThermiteUserSettingsManager.cpp:103-162 | the daily-schedule name cases mirror the set-point ones |
| SettingsCases.DailyScheduleArrayCases | test/test_embedded/TestThermiteUserSettingsManager.cpp:164-282 | 12 entries 0..11 are accepted and copied; empty, 11, 13, non-array, -1 and 256 are rejected |
| SettingsCases.DailyToDocCase | test/test_embedded/TestThermiteUserSettingsManager.cpp:308-323 | toJSON of "foo" with 0xde..0x78 carries the name and the 12 bytes |
| SettingsCases.SetPointsArrayCases | test/test_embedded/TestThermiteUserSettingsManager.cpp:361-415 | empty, three, five and non-array set-point arrays are rejected |
| SettingsCases.DailySchedulesArrayCases | test/test_embedded/TestThermiteUserSettingsManager.cpp:447-501 | empty, three, five and non-array daily-schedule arrays are rejected |
| SettingsCases.SetPointsValidCase | test/test_embedded/TestThermiteUserSettingsManager.cpp:333-358 | "way too cold" 10.0 .. "way too hot" 30.0 are accepted and stored in order |
| SettingsCases.DailySchedulesValidCase | test/test_embedded/TestThermiteUserSettingsManager.cpp:417-445 | four all-zero "foo" schedules are accepted and stored |
| SettingsCases.WeeklyCases | test/test_embedded/TestThermiteUserSettingsManager.cpp:503-540 | 0x2a02 is stored; 0x10000, 0x4000 and -1 are rejected |
| SettingsCases.TempOverrideCases | test/test_embedded/TestThermiteUserSettingsManager.cpp:542-570 | 17.5 is stored; -100.0 and 100.0 are rejected |
| SettingsCases.OverrideWindowCases | test/test_embedded/TestThermiteUserSettingsManager.cpp:572-614 | a forward window is stored; zero next to non-zero, and start after end, are rejected |
| SettingsCases.ManagerToDocCase | test/test_embedded/TestThermiteUserSettingsManager.cpp:616-650 | toJSON of the manager reports every stored field, for any settings with four set points and four schedules |
| SettingsCases.ManagerToDocValidates | src/ThermiteUserSettingsManager.h:86-87 | the document toJSON writes for valid settings is accepted by validateJSON |
| Resolution.ScheduledSetPoint | src/ThermiteUserSettingsManager.cpp:124-136 | resolving through the decoded weekly word and decoded daily schedule names one of the four set points |
| Resolution.DayIndex | src/ThermiteUserSettingsManager.cpp:124-131 | `(word >> 2d) & 3` is entry d of the decoded weekly word |
| Resolution.GetTargetTemperature | src/ThermiteUserSettingsManager.cpp:119-139 | the vacation set point on vacation; otherwise the set point the decoded schedules assign to the quarter hour; always one of the four |
| Resolution.VacationIgnoresClock | src/ThermiteUserSettingsManager.cpp:120-122 | on vacation the result does not depend on the moment |
| Resolution.TemporaryWordUnusedOutsideWindow | src/ThermiteUserSettingsManager.cpp:127-131 | outside [temporaryStart, temporaryEnd) the temporary word has no influence |
| Resolution.NormalWordUnusedInsideWindow | src/ThermiteUserSettingsManager.cpp:127-131 | inside the window the normal word has no influence |
| Resolution.ConstantWithinQuarterHour | src/ThermiteUserSettingsManager.cpp:133-138 | moments in the same 15-minute interval of the same day resolve alike |
| Resolution.WeeklyHighBitsIgnored | src/ThermiteUserSettingsManager.cpp:127-131 | only the low 14 bits of either weekly word matter |
| Resolution.DefaultsWellFormed | src/ThermiteUserSettingsManager.cpp:45-117 | the defaults have four set points and four 24-byte schedules, and their empty window never applies |
| Resolution.DefaultWeek | src/ThermiteUserSettingsManager.cpp:112-113 | 0x2002 gives schedule 2 on Sunday and Saturday and schedule 0 on the other days |
| Resolution.UniformHoursDecode | src/ThermiteUserSettingsManager.cpp:136 | a byte repeating one index in its four fields decodes to that index for each quarter of the hour |
| Resolution.WorkFromHomeFollowsComment | src/ThermiteUserSettingsManager.cpp:53-68 | "Work from Home" decodes to sleep, normal, home office, normal, sleep over the commented hours |
| Resolution.AtTheOfficeFollowsComment | src/ThermiteUserSettingsManager.cpp:69-82 | "At the Office" decodes to sleep, normal, sleep over the commented hours |
| Resolution.DayOffFollowsComment | src/ThermiteUserSettingsManager.cpp:83-110 | "Day Off" and "Other" decode to sleep, normal, sleep over the commented hours |
| Resolution.DefaultTargets | src/ThermiteUserSettingsManager.cpp:45-139 | with the defaults, the target is 20.0, 17.0 or 16.0 as the weekday and hour plan says |
| ManagerJson.SetPointJson | src/ThermiteUserSettingsManager.cpp:12-20 | a set point is written with keys name, then tempTarget |
| ManagerJson.DailyScheduleJson | src/ThermiteUserSettingsManager.cpp:29-43 | a daily schedule is written with keys name, then schedule |
| ManagerJson.ToJson | src/ThermiteUserSettingsManager.cpp:141-189 | for any settings with four set points and four 24-byte schedules, whatever the vacation index, the keys come in source order with four-entry arrays |
| ManagerJson.SetPointRoundTrip | src/ThermiteUserSettingsManager.cpp:12-20 | a set point's document reads back as the set point |
| ManagerJson.DailyScheduleRoundTrip | src/ThermiteUserSettingsManager.cpp:29-43 | a 24-byte schedule's document reads back as the schedule |
| ManagerJson.SetPointsRoundTrip | src/ThermiteUserSettingsManager.cpp:142-154 | the setPoints array holds the four set points in index order |
| ManagerJson.DailySchedulesRoundTrip | src/ThermiteUserSettingsManager.cpp:156-168 | the dailySchedules array holds the four daily schedules in index order |
| ManagerJson.ToJsonRoundTrip | src/ThermiteUserSettingsManager.cpp:141-189 | the manager's document reads back as exactly the settings it was written from, whatever the vacation index |
| InternalState.Sub32 | src/ThermiteInternalState.cpp:51-59 | unsigned subtraction equals the difference when no wrap occurs, and adds 2^32 otherwise |
| InternalState.UpdateTemperature | src/ThermiteInternalState.cpp:43-69 | a request exactly when due, and it records the tick; a read exactly when due; a clock that went backwards only records the tick; an idle tick changes nothing; only a read changes the temperature |
| InternalState.UpdateHeater | src/ThermiteInternalState.cpp:22-35 | no change without a target; on at or below target - H, off at or above target + H, else unchanged; only the heater changes |
| InternalState.Update | src/ThermiteInternalState.cpp:100-105 | the tick keeps the temperature step's sensor operation, temperature and request time, records the target, and then decides the heater against the new temperature: on at or below target − H, off at or above target + H, unchanged inside the band or without a target |
| InternalState.Timing | src/ThermiteInternalState.h:13-15 | the conversion delay is 375 ms and the request interval 60000 ms |
| InternalState.ElapsedWithoutWrap | src/ThermiteInternalState.cpp:44-59 | past the wrap guard the unsigned difference is the true elapsed time |
| InternalState.SamplingCycle | src/ThermiteInternalState.cpp:51-68 | after a request: nothing up to 375 ms, a read up to 60000 ms, then a new request |
| InternalState.WrapAroundRestartsInterval | src/ThermiteInternalState.cpp:44-50 | a clock that went backwards only moves the request time to the tick |
| InternalState.DisconnectedReadingIgnored | src/ThermiteInternalState.cpp:64-67 | a DEVICE_DISCONNECTED_C reading never replaces the temperature |
| InternalState.NoRequestWithinInterval | src/ThermiteInternalState.cpp:51-58 | any run of ticks within a minute of a request makes no second request |
| InternalState.HeaterWithinBand | src/ThermiteInternalState.h:59-66 | with H > 0 the heater is on only below target + H and off only above target - H |
| InternalState.NoChatterInsideBand | src/ThermiteInternalState.cpp:30-34 | strictly inside the band the heater keeps either state |
| InternalState.HysteresisSequence | src/ThermiteInternalState.cpp:22-35 | target 20, H 1: readings 21.5, 19.5, 19.0, 18.9 give off, off, on, on |
| InternalState.FirstTick | src/ThermiteInternalState.cpp:7-20 | the first tick requests a conversion; with a target of −126 or more, such as 20, it turns the heater on before any reading, and with a lower target other than −127 it leaves it off |
| InternalState.NoTargetKeepsHeater | src/ThermiteInternalState.cpp:23-29 | while the target is DEVICE_DISCONNECTED_C the heater keeps its state |
| InternalState.HeaterSeesFreshReading | src/ThermiteInternalState.cpp:100-105 | when a good reading is due, the tick reads it and ends in the state the heater decision gives for that reading and this tick's target |

## Left out

- `ThermiteWebController` and `main.cpp`: HTTP routing and the firmware entry point. They sit outside the core.
- The web client's `main.js` and `Constants.js`: user interface only.
- `ThermiteInternalState::init`: the thermometer's address lookup, the OneWire CRC check and the resolution setup are hardware calls.
- `updateDateTimeIso` and `ThermiteInternalState::toJSON`: ISO 8601 formatting over Timezone and TimeLib calls that are not shown.
- `_updateTargetTemperature`: the NTP time and the time-zone conversion are not modelled. The target it yields is a parameter of `InternalState.Update`, and `Resolution.GetTargetTemperature` models how it is computed.
- `Resolution.GetTargetTemperature`: the source reads `_setPoints[_vacationSetPointIndex]` without a bounds check, and the `.cpp` revision shows no validator for the index. An out-of-range vacation index is an out-of-bounds read there; the model excludes it through `Resolution.WellFormed`.
- TimeLib's `weekday`, `hour` and `minute`: they become the `Resolution.Clock` input, with the ranges TimeLib guarantees.
- `getHeater` returns the `heater` field of the state and needs no member of its own.
- IEEE `float` rounding: temperatures are reals.
- ArduinoJson memory exhaustion: every `toJSON` that would return false because a node could not be allocated is modelled as always succeeding. Document capacities are not modelled.
- `Jsonable::updateFromJSONSafe` (src/Jsonable.h:11-17) is the same composition as `JsonRead::updateFromJSONSafe`. `JsonIO.UpdateFromJsonSafe` models both.
- `const` on `validateJSON` and `toJSON`: these are pure functions of the object in the model, so they cannot change it.
- The bodies of `validateJSON` and `updateFromJSON`: they are not in the source. The rules modelled are those the Unity tests fix. Cases the tests do not reach are explicit choices of the model, listed under "Two revisions".
- JSON strings holding a NUL character cannot be names (`Names.CString`).
- `DailyScheduleCodec.DecodeBytes`: the JavaScript array starts with length 48. For fewer than 12 bytes its tail stays holes, and for more it grows to four entries per byte. The model always returns four entries per byte.
- `WeeklyScheduleCodec.Encode`, `DailyScheduleCodec.SlotsByte`, `WeeklyScheduleCodec.Decode`, `DailyScheduleCodec.DecodeBytes`: JavaScript shifts and masks work on 32-bit signed integers. The model treats them on unbounded non-negative values, so inputs at or above 2^31, or negative ones, are not modelled.
- `Names.StoredName`, `SetPoints.Make`, `DailySchedules.Make`: names are sequences of characters and the 15 limit counts characters. `strncpy` counts the bytes of the UTF-8 string, so a name with non-ASCII characters keeps fewer characters in the source, possibly ending in a partial character.
- `SetPoints.Apply`, `DailySchedules.Apply` and `UserSettings.Apply`: their contracts describe a name longer than 15 characters only as truncated. Out-of-range bytes are stored modulo 256. A weekly word outside 0..0xFFFF is stored modulo 0x10000. What a wrong-typed key does on an unvalidated apply is not in the source.

=== FILE: bit_fields.dfy ===
/**
  Two-bit fields packed into non-negative integers.

  Both the firmware and the web client store small indices (0..3) two bits
  apiece: a byte holds four of them, the weekly word seven. On non-negative
  values the source's `x >> n` is n halvings, `x << n` is multiplication by
  2^n and `x & 0x3` is `x % 4`; `a | b` is `Or`. Packing with
  `a | (b << 2) | (c << 4) ...` puts every index in its own bit pair, so when
  each index is below 4 the bitwise or equals the sum, which is what `Pack`
  computes.
 */
module BitFields {

  /** 4^k: the weight of the k-th two-bit field. */
  function Pow4(k: nat): (r: nat)
    ensures r >= 1
  {
    if k == 0 then 1 else 4 * Pow4(k - 1)
  }

  /** 2^k. */
  function Pow2(k: nat): (r: nat)
    ensures r >= 1
  {
    if k == 0 then 1 else 2 * Pow2(k - 1)
  }

  /** `x >> n` on a non-negative value. */
  function Shr(x: nat, n: nat): nat
  {
    if n == 0 then x else Shr(x / 2, n - 1)
  }

  /** `a | b` on non-negative values, built bit by bit from the lowest. */
  function Or(a: nat, b: nat): nat
    decreases a + b
  {
    if a == 0 then b
    else if b == 0 then a
    else 2 * Or(a / 2, b / 2) + (if a % 2 == 1 || b % 2 == 1 then 1 else 0)
  }

  /** Every bit of zero is clear. */
  lemma {:induction false} ShrZero(k: nat)
    ensures Shr(0, k) == 0
  {
    if k > 0 {
      ShrZero(k - 1);
    }
  }

  /** Bit k of `a | b` is set exactly when bit k of a or bit k of b is set. */
  lemma {:induction false} OrBit(a: nat, b: nat, k: nat)
    ensures Shr(Or(a, b), k) % 2 == 1 <==> Shr(a, k) % 2 == 1 || Shr(b, k) % 2 == 1
    decreases k
  {
    ShrZero(k);
    if a != 0 && b != 0 && k > 0 {
      var o := Or(a, b);
      assert o / 2 == Or(a / 2, b / 2);
      OrBit(a / 2, b / 2, k - 1);
    }
  }

  /** Or-ing a value into bits that are all clear adds it. */
  lemma {:induction false} OrAddDisjoint(a: nat, b: nat, n: nat)
    requires a < Pow2(n)
    ensures Or(a, b * Pow2(n)) == a + b * Pow2(n)
  {
    if n > 0 && a != 0 && b != 0 {
      var m := Pow2(n - 1);
      var c := b * Pow2(n);
      assert c == 2 * (b * m);
      assert c / 2 == b * m && c % 2 == 0;
      OrAddDisjoint(a / 2, b, n - 1);
    }
  }

  /** The weight of field k is bit 2k. */
  lemma {:induction false} Pow2Pow4(k: nat)
    ensures Pow2(2 * k) == Pow4(k)
  {
    if k > 0 {
      Pow2Pow4(k - 1);
      assert Pow2(2 * k) == 4 * Pow2(2 * (k - 1));
    }
  }

  /** Or-ing a two-bit entry into the empty field k of a smaller value adds it. */
  lemma OrField(acc: nat, x: nat, k: nat)
    requires acc < Pow4(k) && x < 4
    ensures Or(acc, x * Pow4(k)) == acc + x * Pow4(k)
    ensures acc + x * Pow4(k) < Pow4(k + 1)
  {
    Pow2Pow4(k);
    OrAddDisjoint(acc, x, 2 * k);
  }

  /** `(x >> (2 * k)) & 0x3`: the k-th two-bit field of x. */
  function Field(x: nat, k: nat): (r: nat)
    ensures r < 4
  {
    Shr(x, 2 * k) % 4
  }

  /** True when every entry fits in two bits. */
  predicate AllTwoBit(s: seq<nat>)
  {
    forall i :: 0 <= i < |s| ==> s[i] < 4
  }

  /** The first n two-bit fields of x, lowest first. */
  function Unpack(x: nat, n: nat): (r: seq<nat>)
    ensures |r| == n
  {
    if n == 0 then [] else [x % 4] + Unpack(x / 4, n - 1)
  }

  /** Packs two-bit entries, entry k landing in bits 2k..2k+1. */
  function Pack(s: seq<nat>): nat
  {
    if |s| == 0 then 0 else s[0] + 4 * Pack(s[1..])
  }

  /** Packing an entry in front of others shifts them up one field. */
  lemma PackCons(x: nat, s: seq<nat>)
    ensures Pack([x] + s) == x + 4 * Pack(s)
  {
    assert ([x] + s)[1..] == s;
  }

  /** Shifting by two more bits is shifting x / 4. */
  lemma {:induction false} ShrTwoMore(x: nat, n: nat)
    ensures Shr(x, n + 2) == Shr(x / 4, n)
  {
    calc {
      Shr(x, n + 2);
      Shr(x / 2, n + 1);
      Shr(x / 2 / 2, n);
      { assert x / 2 / 2 == x / 4; }
      Shr(x / 4, n);
    }
  }

  /** Unpacked entry k is exactly field k of the packed value. */
  lemma {:induction false} UnpackField(x: nat, n: nat, k: nat)
    requires k < n
    ensures Unpack(x, n)[k] == Field(x, k)
    decreases k
  {
    if k > 0 {
      UnpackField(x / 4, n - 1, k - 1);
      ShrTwoMore(x, 2 * (k - 1));
    }
  }

  /** Every unpacked entry fits in two bits. */
  lemma UnpackTwoBit(x: nat, n: nat)
    ensures AllTwoBit(Unpack(x, n))
  {
    forall k | 0 <= k < n
      ensures Unpack(x, n)[k] < 4
    {
      UnpackField(x, n, k);
    }
  }

  /** Packing n two-bit entries yields a value below 4^n. */
  lemma {:induction false} PackBound(s: seq<nat>)
    requires AllTwoBit(s)
    ensures Pack(s) < Pow4(|s|)
  {
    if |s| > 0 {
      assert AllTwoBit(s[1..]) by {
        forall i | 0 <= i < |s[1..]| ensures s[1..][i] < 4 {
          assert s[1..][i] == s[i + 1];
        }
      }
      PackBound(s[1..]);
    }
  }

  /** Unpacking what was packed gives the entries back. */
  lemma {:induction false} UnpackPack(s: seq<nat>)
    requires AllTwoBit(s)
    ensures Unpack(Pack(s), |s|) == s
  {
    if |s| > 0 {
      var p := Pack(s);
      assert p % 4 == s[0] && p / 4 == Pack(s[1..]);
      assert AllTwoBit(s[1..]) by {
        forall i | 0 <= i < |s[1..]| ensures s[1..][i] < 4 {
          assert s[1..][i] == s[i + 1];
        }
      }
      UnpackPack(s[1..]);
      assert Unpack(p, |s|) == [s[0]] + s[1..];
    }
  }

  /** Packing the first n fields of a value below 4^n gives the value back. */
  lemma {:induction false} PackUnpack(x: nat, n: nat)
    requires x < Pow4(n)
    ensures Pack(Unpack(x, n)) == x
  {
    if n > 0 {
      var u := Unpack(x, n);
      assert u[1..] == Unpack(x / 4, n - 1);
      PackUnpack(x / 4, n - 1);
    }
  }

  /** Fields at or above n do not influence the first n fields. */
  lemma {:induction false} UnpackDropsHighFields(x: nat, n: nat)
    ensures Unpack(x, n) == Unpack(x % Pow4(n), n)
  {
    if n > 0 {
      var p := Pow4(n - 1);
      var y := x % Pow4(n);
      ModSplit(x, p);
      assert y % 4 == x % 4 && y / 4 == (x / 4) % p;
      UnpackDropsHighFields(x / 4, n - 1);
      calc {
        Unpack(y, n);
        [y % 4] + Unpack(y / 4, n - 1);
        [x % 4] + Unpack((x / 4) % p, n - 1);
        [x % 4] + Unpack(x / 4, n - 1);
        Unpack(x, n);
      }
    }
  }

  /** Reducing modulo 4p keeps the low field and reduces the rest modulo p. */
  lemma ModSplit(x: nat, p: nat)
    requires p >= 1
    ensures (x % (4 * p)) % 4 == x % 4
    ensures (x % (4 * p)) / 4 == (x / 4) % p
  {
    var q := x / (4 * p);
    var r := x % (4 * p);
    assert x == 4 * p * q + r;
    var a := x / 4;
    var b := x % 4;
    assert x == 4 * a + b;
    assert r == 4 * (a - p * q) + b;
    DivModUnique(r, 4, a - p * q, b);
    assert a == p * q + r / 4;
    assert 0 <= r / 4 < p;
    DivModUnique(a, p, q, r / 4);
  }

  /** Quotient and remainder are determined by x == d * q + r with 0 <= r < d. */
  lemma DivModUnique(x: int, d: int, q: int, r: int)
    requires d > 0 && 0 <= r < d && x == d * q + r
    ensures x / d == q && x % d == r
  {
    var q' := x / d;
    var r' := x % d;
    assert x == d * q' + r';
    assert d * (q - q') == r' - r;
    if q > q' {
      MulAtLeast(d, q - q');
    } else if q < q' {
      MulAtLeast(d, q' - q);
    }
  }

  /** A positive multiple of d is at least d. */
  lemma MulAtLeast(d: int, k: int)
    requires d > 0 && k >= 1
    ensures d * k >= d
  {
    assert d * k == d * (k - 1) + d;
    assert d * (k - 1) >= 0;
  }
}

=== FILE: daily_schedule.dfy ===
/**
  `ThermiteDailySchedule` in its 12-byte revision
  (src/ThermiteUserSettingsManager.h): a name and 12 bytes holding 48
  two-bit set-point indices, one per 30-minute interval.

  Validation rules come from the Unity tests: an empty document is valid; a
  present `name` must hold 1..15 characters; a present `schedule` must be an
  array of exactly 12 entries, each in 0..255. Applying copies entry i of the
  array to byte i.
 */
module DailySchedules {
  import opened JsonIO
  import opened Names
  import opened DailyScheduleCodec
  import SetPoints

  datatype DailySchedule = DailySchedule(name: CString, schedule: seq<nat>)

  /** A daily-schedule document: optional `name` and `schedule` keys; entries are raw JSON integers. */
  datatype DailyScheduleDoc = DailyScheduleDoc(name: Field<CString>, schedule: Field<seq<int>>)

  const EmptyDoc := DailyScheduleDoc(Absent, Absent)

  /** What every accepted update keeps true of a daily schedule. */
  predicate Valid(ds: DailySchedule)
  {
    SetPoints.ValidName(ds.name) && |ds.schedule| == ScheduleBytes && AllBytes(ds.schedule)
  }

  /** A JSON array that may be copied into the schedule bytes. */
  predicate ValidScheduleArray(a: seq<int>)
  {
    |a| == ScheduleBytes && forall i :: 0 <= i < |a| ==> 0 <= a[i] <= 255
  }

  predicate ScheduleFieldValid(f: Field<seq<int>>)
  {
    match f
    case Absent => true
    case Present(a) => ValidScheduleArray(a)
    case WrongType => false
  }

  /**
    `ThermiteDailySchedule(name, schedule)`: keeps the first 15 characters of
    the name and copies `width` bytes of the schedule.
   */
  function Make(name: CString, raw: seq<nat>, width: nat): (r: DailySchedule)
    requires width <= |raw|
    ensures r.name == name[..Min(NameMax, |name|)]
    ensures r.name == name <==> |name| <= NameMax
    ensures |r.schedule| == width
    ensures forall i :: 0 <= i < width ==> r.schedule[i] == raw[i]
  {
    DailySchedule(StoredName(name), raw[..width])
  }

  /** Copies array entry i into byte i, each as an unsigned byte, leaving bytes past the array alone. */
  function CopySchedule(bytes: seq<nat>, a: seq<int>): (r: seq<nat>)
    ensures |r| == |bytes|
    ensures forall i :: 0 <= i < |bytes| && i < |a| ==> r[i] == a[i] % 256
    ensures forall i :: |a| <= i < |bytes| ==> r[i] == bytes[i]
    ensures AllBytes(r) || !AllBytes(bytes)
  {
    seq(|bytes|, i requires 0 <= i < |bytes| => if i < |a| then a[i] % 256 else bytes[i])
  }

  /** `validateJSON`: every present key is within bounds; absent keys are always fine. */
  function Validate(doc: DailyScheduleDoc): (ok: bool)
    ensures ok <==>
      && !doc.name.WrongType? && !doc.schedule.WrongType?
      && (doc.name.Present? ==> 1 <= |doc.name.value| <= NameMax)
      && (doc.schedule.Present? ==>
            |doc.schedule.value| == ScheduleBytes && forall i :: 0 <= i < ScheduleBytes ==> 0 <= doc.schedule.value[i] < 256)
  {
    SetPoints.NameFieldValid(doc.name) && ScheduleFieldValid(doc.schedule)
  }

  /** `updateFromJSON`: stores the truncated name and copies the schedule array byte by byte. */
  function Apply(ds: DailySchedule, doc: DailyScheduleDoc): (r: DailySchedule)
    ensures doc.name.Present? ==> r.name == doc.name.value[..Min(NameMax, |doc.name.value|)]
    ensures !doc.name.Present? ==> r.name == ds.name
    ensures !doc.schedule.Present? ==> r.schedule == ds.schedule
    ensures doc.schedule.Present? && |ds.schedule| == ScheduleBytes && ValidScheduleArray(doc.schedule.value) ==>
      r.schedule == doc.schedule.value
  {
    var name := if doc.name.Present? then StoredName(doc.name.value) else ds.name;
    var bytes := if doc.schedule.Present? then CopySchedule(ds.schedule, doc.schedule.value) else ds.schedule;
    DailySchedule(name, bytes)
  }

  /** `toJSON`: the name and the schedule bytes. */
  function ToDoc(ds: DailySchedule): DailyScheduleDoc
  {
    DailyScheduleDoc(Present(ds.name), Present(ds.schedule))
  }

  /** `updateFromJSONSafe` for a daily schedule. */
  function UpdateSafe(ds: DailySchedule, doc: DailyScheduleDoc): (r: Update<DailySchedule>)
    ensures r.accepted <==> Validate(doc)
    ensures !r.accepted ==> r.state == ds
    ensures r.accepted ==> r.state == Apply(ds, doc)
    ensures Valid(ds) && r.accepted ==> Valid(r.state)
  {
    ApplyKeepsValid(ds, doc);
    UpdateFromJsonSafe((s: DailySchedule, d: DailyScheduleDoc) => Validate(d), Apply, ds, doc)
  }

  /** Applying a valid document to a valid daily schedule yields a valid daily schedule. */
  lemma ApplyKeepsValid(ds: DailySchedule, doc: DailyScheduleDoc)
    ensures Valid(ds) && Validate(doc) ==> Valid(Apply(ds, doc))
  {
    if Valid(ds) && Validate(doc) && doc.schedule.Present? {
      var a := doc.schedule.value;
      assert Apply(ds, doc).schedule == a;
    }
  }

  /** The empty document validates and changes nothing. */
  lemma EmptyDocIsNoOp(ds: DailySchedule)
    ensures UpdateSafe(ds, EmptyDoc) == Update(true, ds)
  {
  }

  /**
    Round trip: the document `toJSON` writes for a valid daily schedule
    validates, and applying it to any 12-byte schedule reproduces the original.
   */
  lemma ToDocRoundTrip(ds: DailySchedule, other: DailySchedule)
    requires Valid(ds) && |other.schedule| == ScheduleBytes
    ensures Validate(ToDoc(ds))
    ensures Apply(other, ToDoc(ds)) == ds
  {
    assert ds.name[..Min(NameMax, |ds.name|)] == ds.name;
  }

  /** Every entry of a valid schedule names one of the four set points, 48 in all. */
  lemma SlotsOfValid(ds: DailySchedule)
    requires Valid(ds)
    ensures |DecodeBytes(ds.schedule)| == SlotsPerDay
    ensures forall j :: 0 <= j < SlotsPerDay ==> DecodeBytes(ds.schedule)[j] < 4
  {
    forall j | 0 <= j < SlotsPerDay
      ensures DecodeBytes(ds.schedule)[j] < 4
    {
      DecodeBytesEntry(ds.schedule, j);
    }
  }
}

=== FILE: daily_schedule_codec.dfy ===
/**
  The web client's daily-schedule codec (web/src/lib/DailySchedule.js).

  A daily schedule is 12 bytes holding 48 two-bit set-point indices, one per
  30-minute interval of the day. Entry 4i+k is bits 2k..2k+1 of byte i, so the
  entry for hour h and minute m, 2h + m/30, sits in byte h/2 at field
  (h % 2) * 2 + m/30.
 */
module DailyScheduleCodec {
  import opened BitFields

  /** Bytes in a daily schedule. */
  const ScheduleBytes := 12
  /** Thirty-minute intervals in a day, one two-bit entry each. */
  const SlotsPerDay := 48

  /** True when every value fits in an unsigned byte. */
  predicate AllBytes(b: seq<nat>)
  {
    forall i :: 0 <= i < |b| ==> b[i] < 256
  }

  /** `b & 0x3`, `(b >> 2) & 0x3`, `(b >> 4) & 0x3`, `(b >> 6) & 0x3`. */
  function ByteSlots(b: nat): seq<nat>
  {
    [Field(b, 0), Field(b, 1), Field(b, 2), Field(b, 3)]
  }

  /** `b = s0; b |= s1 << 2; b |= s2 << 4; b |= s3 << 6`. */
  function SlotsByte(s0: nat, s1: nat, s2: nat, s3: nat): nat
  {
    Or(Or(Or(s0, s1 * 4), s2 * 16), s3 * 64)
  }

  /** `decodeBytes`: byte i supplies entries 4i..4i+3, each a set-point index. */
  function DecodeBytes(raw: seq<nat>): (r: seq<nat>)
    ensures |r| == 4 * |raw|
  {
    if |raw| == 0 then [] else ByteSlots(raw[0]) + DecodeBytes(raw[1..])
  }

  /** Field q of byte b is decoded entry 4b + q. */
  lemma {:induction false} ByteFieldEntry(raw: seq<nat>, b: nat, q: nat)
    requires b < |raw| && q < 4
    ensures DecodeBytes(raw)[4 * b + q] == Field(raw[b], q)
  {
    if b > 0 {
      ByteFieldEntry(raw[1..], b - 1, q);
      assert DecodeBytes(raw)[4 * b + q] == DecodeBytes(raw[1..])[4 * (b - 1) + q];
    }
  }

  /** Entry j of the decoded schedule is field j % 4 of byte j / 4, so it is in 0..3. */
  lemma DecodeBytesEntry(raw: seq<nat>, j: nat)
    requires j < 4 * |raw|
    ensures DecodeBytes(raw)[j] == Field(raw[j / 4], j % 4)
    ensures DecodeBytes(raw)[j] < 4
  {
    ByteFieldEntry(raw, j / 4, j % 4);
  }

  /** `encodeBytes`: byte i packs entries 4i..4i+3. */
  function EncodeBytes(schedule: seq<nat>): (r: seq<nat>)
    requires |schedule| == SlotsPerDay
    ensures |r| == ScheduleBytes
  {
    seq(ScheduleBytes, i requires 0 <= i < ScheduleBytes =>
      SlotsByte(schedule[4 * i], schedule[4 * i + 1], schedule[4 * i + 2], schedule[4 * i + 3]))
  }

  /** For indices in 0..3 no two shifted indices share a bit, so or-ing them adds them. */
  lemma SlotsByteIsSum(s0: nat, s1: nat, s2: nat, s3: nat)
    requires s0 < 4 && s1 < 4 && s2 < 4 && s3 < 4
    ensures SlotsByte(s0, s1, s2, s3) == s0 + s1 * 4 + s2 * 16 + s3 * 64
  {
    assert Pow4(1) == 4 && Pow4(2) == 16 && Pow4(3) == 64;
    OrField(s0, s1, 1);
    OrField(s0 + s1 * 4, s2, 2);
    OrField(s0 + s1 * 4 + s2 * 16, s3, 3);
  }

  /**
    For indices in 0..3 the packing of one byte is the generic two-bit packing
    of its four entries, so it fits in a byte.
   */
  lemma SlotsByteIsPack(s0: nat, s1: nat, s2: nat, s3: nat)
    requires s0 < 4 && s1 < 4 && s2 < 4 && s3 < 4
    ensures SlotsByte(s0, s1, s2, s3) == Pack([s0, s1, s2, s3])
    ensures SlotsByte(s0, s1, s2, s3) < 256
  {
    SlotsByteIsSum(s0, s1, s2, s3);
    PackCons(s3, []);
    assert [s3] + [] == [s3];
    PackCons(s2, [s3]);
    assert [s2] + [s3] == [s2, s3];
    PackCons(s1, [s2, s3]);
    assert [s1] + [s2, s3] == [s1, s2, s3];
    PackCons(s0, [s1, s2, s3]);
    assert [s0] + [s1, s2, s3] == [s0, s1, s2, s3];
  }

  /** Indices in 0..3 encode to bytes. */
  lemma EncodeBytesInRange(schedule: seq<nat>)
    requires |schedule| == SlotsPerDay && AllTwoBit(schedule)
    ensures AllBytes(EncodeBytes(schedule))
  {
    forall i | 0 <= i < ScheduleBytes
      ensures EncodeBytes(schedule)[i] < 256
    {
      SlotsByteIsPack(schedule[4 * i], schedule[4 * i + 1], schedule[4 * i + 2], schedule[4 * i + 3]);
    }
  }

  /** Field k of a packed byte is its k-th entry. */
  lemma SlotsByteFields(s0: nat, s1: nat, s2: nat, s3: nat, k: nat)
    requires s0 < 4 && s1 < 4 && s2 < 4 && s3 < 4 && k < 4
    ensures Field(SlotsByte(s0, s1, s2, s3), k) == [s0, s1, s2, s3][k]
  {
    var s := [s0, s1, s2, s3];
    SlotsByteIsPack(s0, s1, s2, s3);
    UnpackPack(s);
    UnpackField(Pack(s), 4, k);
  }

  /** Repacking the four fields of a byte gives the byte back. */
  lemma ByteSlotsRepack(b: nat)
    requires b < 256
    ensures SlotsByte(Field(b, 0), Field(b, 1), Field(b, 2), Field(b, 3)) == b
  {
    var u := Unpack(b, 4);
    UnpackField(b, 4, 0);
    UnpackField(b, 4, 1);
    UnpackField(b, 4, 2);
    UnpackField(b, 4, 3);
    assert u == [Field(b, 0), Field(b, 1), Field(b, 2), Field(b, 3)];
    SlotsByteIsPack(Field(b, 0), Field(b, 1), Field(b, 2), Field(b, 3));
    assert Pow4(4) == 256;
    PackUnpack(b, 4);
  }

  /** Entry q of byte i survives encoding and decoding. */
  lemma DecodeEncodeSlot(schedule: seq<nat>, i: nat, q: nat)
    requires |schedule| == SlotsPerDay && AllTwoBit(schedule)
    requires i < ScheduleBytes && q < 4
    ensures DecodeBytes(EncodeBytes(schedule))[4 * i + q] == schedule[4 * i + q]
  {
    var bytes := EncodeBytes(schedule);
    var s0, s1, s2, s3 := schedule[4 * i], schedule[4 * i + 1], schedule[4 * i + 2], schedule[4 * i + 3];
    assert bytes[i] == SlotsByte(s0, s1, s2, s3);
    ByteFieldEntry(bytes, i, q);
    SlotsByteFields(s0, s1, s2, s3, q);
    assert [s0, s1, s2, s3][q] == schedule[4 * i + q] by {
      if q == 0 {} else if q == 1 {} else if q == 2 {} else {}
    }
  }

  /** decodeBytes(encodeBytes(s)) == s for 48 indices in 0..3. */
  lemma DecodeEncode(schedule: seq<nat>)
    requires |schedule| == SlotsPerDay && AllTwoBit(schedule)
    ensures DecodeBytes(EncodeBytes(schedule)) == schedule
  {
    forall j | 0 <= j < SlotsPerDay
      ensures DecodeBytes(EncodeBytes(schedule))[j] == schedule[j]
    {
      DecodeEncodeSlot(schedule, j / 4, j % 4);
    }
  }

  /** Byte i of the re-encoded schedule is byte i of the original. */
  lemma EncodeDecodeByte(raw: seq<nat>, i: nat)
    requires |raw| == ScheduleBytes && i < ScheduleBytes && raw[i] < 256
    ensures EncodeBytes(DecodeBytes(raw))[i] == raw[i]
  {
    var d := DecodeBytes(raw);
    ByteFieldEntry(raw, i, 0);
    ByteFieldEntry(raw, i, 1);
    ByteFieldEntry(raw, i, 2);
    ByteFieldEntry(raw, i, 3);
    assert EncodeBytes(d)[i] == SlotsByte(d[4 * i], d[4 * i + 1], d[4 * i + 2], d[4 * i + 3]);
    ByteSlotsRepack(raw[i]);
  }

  /** encodeBytes(decodeBytes(b)) == b for 12 bytes. */
  lemma EncodeDecode(raw: seq<nat>)
    requires |raw| == ScheduleBytes && AllBytes(raw)
    ensures EncodeBytes(DecodeBytes(raw)) == raw
  {
    forall i | 0 <= i < ScheduleBytes
      ensures EncodeBytes(DecodeBytes(raw))[i] == raw[i]
    {
      EncodeDecodeByte(raw, i);
    }
  }

  /**
    The entry for hour:minute lies in byte hour/2, at field
    (hour % 2) * 2 + minute/30.
   */
  lemma SlotLocation(raw: seq<nat>, hour: nat, minute: nat)
    requires |raw| == ScheduleBytes
    requires hour < 24 && minute < 60
    ensures DecodeBytes(raw)[2 * hour + minute / 30] == Field(raw[hour / 2], (hour % 2) * 2 + minute / 30)
  {
    var j := 2 * hour + minute / 30;
    var a, b, q := hour / 2, hour % 2, minute / 30;
    assert hour == 2 * a + b && q < 2;
    var f := 2 * b + q;
    assert j == 4 * a + f && f < 4;
    DivModUnique(j, 4, a, f);
    assert j / 4 == a && j % 4 == f;
    DecodeBytesEntry(raw, j);
  }

  /** The entry is the same for every minute of one 30-minute interval. */
  lemma SlotConstantWithinInterval(raw: seq<nat>, hour: nat, m1: nat, m2: nat)
    requires |raw| == ScheduleBytes
    requires hour < 24 && m1 < 60 && m2 < 60 && m1 / 30 == m2 / 30
    ensures DecodeBytes(raw)[2 * hour + m1 / 30] == DecodeBytes(raw)[2 * hour + m2 / 30]
    ensures DecodeBytes(raw)[2 * hour + m1 / 30] < 4
  {
    SlotLocation(raw, hour, m1);
    SlotLocation(raw, hour, m2);
  }
}

=== FILE: internal_state.dfy ===
/**
  The control loop of `ThermiteInternalState` (src/ThermiteInternalState.h,
  src/ThermiteInternalState.cpp): sampling the DS18B20 thermometer on a
  `millis()` clock and switching the heater with hysteresis.

  The thermometer, the NTP client and the time zone are not modelled: what
  `getTempC` returns, and the target `getTargetTemperature` yields for the
  local time, are parameters of a tick, and the sensor operation a tick
  performs is part of its result. Temperatures are reals; IEEE rounding of
  `float` is not modelled.
 */
module InternalState {
  import opened BitFields

  /** DS18B20 resolution in bits. */
  const TempResolution: nat := 11
  /** Conversion time at that resolution: 750 ms halved for every bit below 12. */
  const TempRequestDelay: nat := 750 / Pow2(12 - TempResolution)
  /** Time between two conversion requests, in ms. */
  const TempRequestInterval: nat := 60000
  /** What the sensor library reports for a missing or failed thermometer. */
  const DeviceDisconnectedC: real := -127.0
  /** `millis()` and `unsigned long` arithmetic are 32-bit. */
  const MillisModulus: nat := 0x1_0000_0000

  /** A value of `millis()`. */
  type Millis = n: nat | n < MillisModulus

  /** `a - b` on two `unsigned long` values, wrapping modulo 2^32. */
  function Sub32(a: Millis, b: Millis): (r: Millis)
    ensures a >= b ==> r == a - b
    ensures a < b ==> r == a - b + MillisModulus
  {
    (a - b) % MillisModulus
  }

  datatype ControlState = ControlState(
    heater: bool,
    temp: real,
    tempLastRequestedAt: Millis,
    tempTarget: real,
    tempHysteresis: real)

  /** The constructor: heater off, no temperature, no target, nothing requested yet, hysteresis 1.0. */
  const Initial := ControlState(false, DeviceDisconnectedC, 0, DeviceDisconnectedC, 1.0)

  /** The thermometer operation a tick performs: at most one. */
  datatype SensorAction = RequestConversion | ReadSensor | NoSensorAction

  datatype TempStep = TempStep(state: ControlState, action: SensorAction)

  /** True when the tick at updateAt is due to request a new conversion. */
  predicate RequestDue(st: ControlState, updateAt: Millis)
  {
    updateAt >= st.tempLastRequestedAt
    && (st.tempLastRequestedAt == 0 || updateAt - st.tempLastRequestedAt > TempRequestInterval)
  }

  /** True when the tick at updateAt may read the conversion last requested. */
  predicate ReadDue(st: ControlState, updateAt: Millis)
  {
    updateAt >= st.tempLastRequestedAt && !RequestDue(st, updateAt)
    && updateAt - st.tempLastRequestedAt > TempRequestDelay
  }

  /**
    `_updateTemperature(updateAt)`, where `reading` is what `getTempC` would
    return. A clock that went backwards only resets the request time; a due
    request records the time; a due read keeps any reading other than
    `DEVICE_DISCONNECTED_C`.
   */
  function UpdateTemperature(st: ControlState, updateAt: Millis, reading: real): (r: TempStep)
    ensures r.state.tempLastRequestedAt <= updateAt
    ensures r.state.heater == st.heater && r.state.tempTarget == st.tempTarget
    ensures r.state.tempHysteresis == st.tempHysteresis
    ensures r.action == RequestConversion <==> RequestDue(st, updateAt)
    ensures r.action == ReadSensor <==> ReadDue(st, updateAt)
    ensures r.state.tempLastRequestedAt != st.tempLastRequestedAt ==>
      r.state.tempLastRequestedAt == updateAt && r.action != ReadSensor
    ensures r.action == RequestConversion ==> r.state == st.(tempLastRequestedAt := updateAt)
    ensures updateAt < st.tempLastRequestedAt ==>
      r.action == NoSensorAction && r.state == st.(tempLastRequestedAt := updateAt)
    ensures r.action == NoSensorAction && updateAt >= st.tempLastRequestedAt ==> r.state == st
    ensures r.state.temp != st.temp ==> r.action == ReadSensor && r.state.temp == reading
    ensures r.action == ReadSensor && reading != DeviceDisconnectedC ==> r.state.temp == reading
  {
    if updateAt < st.tempLastRequestedAt then
      TempStep(st.(tempLastRequestedAt := updateAt), NoSensorAction)
    else if st.tempLastRequestedAt == 0 || Sub32(updateAt, st.tempLastRequestedAt) > TempRequestInterval then
      TempStep(st.(tempLastRequestedAt := updateAt), RequestConversion)
    else if Sub32(updateAt, st.tempLastRequestedAt) > TempRequestDelay then
      var temp := if reading != DeviceDisconnectedC then reading else st.temp;
      TempStep(st.(temp := temp), ReadSensor)
    else
      TempStep(st, NoSensorAction)
  }

  /**
    `_updateHeater()`: nothing until a target is known; on at or below
    target - hysteresis, off at or above target + hysteresis, unchanged between.
   */
  function UpdateHeater(st: ControlState): (r: ControlState)
    ensures r == st.(heater := r.heater)
    ensures st.tempTarget == DeviceDisconnectedC ==> r == st
    ensures st.tempTarget != DeviceDisconnectedC && st.temp <= st.tempTarget - st.tempHysteresis ==> r.heater
    ensures (st.tempTarget != DeviceDisconnectedC && st.temp > st.tempTarget - st.tempHysteresis
             && st.temp >= st.tempTarget + st.tempHysteresis) ==> !r.heater
    ensures st.tempTarget - st.tempHysteresis < st.temp < st.tempTarget + st.tempHysteresis ==> r == st
  {
    if st.tempTarget == DeviceDisconnectedC then st
    else if st.temp <= st.tempTarget - st.tempHysteresis then st.(heater := true)
    else if st.temp >= st.tempTarget + st.tempHysteresis then st.(heater := false)
    else st
  }

  /**
    `update(updateAt)`: the temperature step, then the target for the current
    local time, then the heater, so the heater sees this tick's reading and target.
    The temperature and request time are the temperature step's; the heater is
    decided against the new temperature and the new target with the stored hysteresis.
   */
  function Update(st: ControlState, updateAt: Millis, reading: real, target: real): (r: TempStep)
    ensures r.state.tempTarget == target
    ensures r.state.tempHysteresis == st.tempHysteresis
    ensures r.action == UpdateTemperature(st, updateAt, reading).action
    ensures r.state.temp == UpdateTemperature(st, updateAt, reading).state.temp
    ensures r.state.tempLastRequestedAt == UpdateTemperature(st, updateAt, reading).state.tempLastRequestedAt
    ensures r.state.tempLastRequestedAt <= updateAt
    ensures target == DeviceDisconnectedC ==> r.state.heater == st.heater
    ensures target != DeviceDisconnectedC && r.state.temp <= target - st.tempHysteresis ==> r.state.heater
    ensures (target != DeviceDisconnectedC && r.state.temp > target - st.tempHysteresis
             && r.state.temp >= target + st.tempHysteresis) ==> !r.state.heater
    ensures target - st.tempHysteresis < r.state.temp < target + st.tempHysteresis ==>
      r.state.heater == st.heater
  {
    var sensed := UpdateTemperature(st, updateAt, reading);
    TempStep(UpdateHeater(sensed.state.(tempTarget := target)), sensed.action)
  }

  /** The conversion delay at 11-bit resolution is 375 ms, the request interval a minute. */
  lemma Timing()
    ensures TempRequestDelay == 375
    ensures TempRequestInterval == 60 * 1000
  {
  }

  /** The tick after a later request time: in step with `millis()`, the difference never wraps. */
  lemma ElapsedWithoutWrap(st: ControlState, updateAt: Millis)
    requires updateAt >= st.tempLastRequestedAt
    ensures Sub32(updateAt, st.tempLastRequestedAt) == updateAt - st.tempLastRequestedAt
  {
  }

  /**
    After a conversion requested at t0 > 0, a tick at t with t0 <= t does
    nothing up to 375 ms later, reads from then up to a minute later, and
    requests again only after that.
   */
  lemma SamplingCycle(st: ControlState, t: Millis, reading: real)
    requires st.tempLastRequestedAt > 0 && t >= st.tempLastRequestedAt
    ensures t - st.tempLastRequestedAt <= TempRequestDelay ==>
      UpdateTemperature(st, t, reading) == TempStep(st, NoSensorAction)
    ensures TempRequestDelay < t - st.tempLastRequestedAt <= TempRequestInterval ==>
      UpdateTemperature(st, t, reading).action == ReadSensor
    ensures t - st.tempLastRequestedAt > TempRequestInterval ==>
      UpdateTemperature(st, t, reading) == TempStep(st.(tempLastRequestedAt := t), RequestConversion)
  {
  }

  /**
    When `millis()` wraps around, the tick that sees a smaller value only
    moves the request time back to it, so the interval restarts from that tick.
   */
  lemma WrapAroundRestartsInterval(st: ControlState, t: Millis, reading: real)
    requires t < st.tempLastRequestedAt
    ensures UpdateTemperature(st, t, reading) == TempStep(st.(tempLastRequestedAt := t), NoSensorAction)
  {
  }

  /** A reading of `DEVICE_DISCONNECTED_C` never replaces the last good temperature. */
  lemma DisconnectedReadingIgnored(st: ControlState, t: Millis)
    ensures UpdateTemperature(st, t, DeviceDisconnectedC).state.temp == st.temp
  {
  }

  /** Applies the temperature step of each tick in turn. */
  function Run(st: ControlState, ticks: seq<Millis>, readings: seq<real>): (r: ControlState)
    requires |ticks| == |readings|
    ensures r.heater == st.heater && r.tempTarget == st.tempTarget
    decreases |ticks|
  {
    if |ticks| == 0 then st
    else Run(UpdateTemperature(st, ticks[0], readings[0]).state, ticks[1..], readings[1..])
  }

  /**
    Once a conversion has been requested at t0 > 0, any run of ticks in
    [t0, t0 + 60000] keeps that request time: no second request comes within
    the interval.
   */
  lemma {:induction false} NoRequestWithinInterval(st: ControlState, ticks: seq<Millis>, readings: seq<real>)
    requires |ticks| == |readings| && st.tempLastRequestedAt > 0
    requires forall k :: 0 <= k < |ticks| ==>
      st.tempLastRequestedAt <= ticks[k] <= st.tempLastRequestedAt + TempRequestInterval
    ensures Run(st, ticks, readings).tempLastRequestedAt == st.tempLastRequestedAt
    decreases |ticks|
  {
    if |ticks| > 0 {
      var next := UpdateTemperature(st, ticks[0], readings[0]);
      assert next.action != RequestConversion;
      assert next.state.tempLastRequestedAt == st.tempLastRequestedAt;
      NoRequestWithinInterval(next.state, ticks[1..], readings[1..]);
    }
  }

  /**
    With a positive hysteresis and a known target, the heater after a
    decision is consistent with the band: on only below target + hysteresis,
    off only above target - hysteresis.
   */
  lemma HeaterWithinBand(st: ControlState)
    requires st.tempHysteresis > 0.0 && st.tempTarget != DeviceDisconnectedC
    ensures UpdateHeater(st).heater ==> st.temp < st.tempTarget + st.tempHysteresis
    ensures !UpdateHeater(st).heater ==> st.temp > st.tempTarget - st.tempHysteresis
  {
  }

  /** Inside the band the heater keeps its state, whichever it was: no chatter. */
  lemma NoChatterInsideBand(st: ControlState)
    requires st.tempTarget != DeviceDisconnectedC
    requires st.tempTarget - st.tempHysteresis < st.temp < st.tempTarget + st.tempHysteresis
    ensures UpdateHeater(st).heater == st.heater
    ensures UpdateHeater(st.(heater := !st.heater)).heater == !st.heater
  {
  }

  /**
    Target 20.0 with hysteresis 1.0, heater off: 21.5 keeps it off, 19.5
    keeps it off, 19.0 turns it on, 18.9 keeps it on.
   */
  lemma HysteresisSequence()
    ensures !UpdateHeater(ControlState(false, 21.5, 1, 20.0, 1.0)).heater
    ensures !UpdateHeater(ControlState(false, 19.5, 1, 20.0, 1.0)).heater
    ensures UpdateHeater(ControlState(false, 19.0, 1, 20.0, 1.0)).heater
    ensures UpdateHeater(ControlState(true, 18.9, 1, 20.0, 1.0)).heater
  {
  }

  /**
    The first tick requests a conversion whatever the clock and has no
    temperature yet. With a target of -126.0 or more, such as 20.0, it turns
    the heater on although nothing has been read; with a lower target other
    than `DEVICE_DISCONNECTED_C` the heater stays off.
   */
  lemma FirstTick(t: Millis, reading: real, target: real)
    ensures Update(Initial, t, reading, 20.0).action == RequestConversion
    ensures Update(Initial, t, reading, 20.0).state.temp == DeviceDisconnectedC
    ensures Update(Initial, t, reading, 20.0).state.heater
    ensures target >= DeviceDisconnectedC + 1.0 ==> Update(Initial, t, reading, target).state.heater
    ensures target < DeviceDisconnectedC + 1.0 && target != DeviceDisconnectedC ==>
      !Update(Initial, t, reading, target).state.heater
  {
  }

  /** Without a target the heater keeps its state, whatever the temperature. */
  lemma NoTargetKeepsHeater(st: ControlState, t: Millis, reading: real)
    ensures Update(st, t, reading, DeviceDisconnectedC).state.heater == st.heater
  {
  }

  /**
    A tick decides the heater on the reading it has just taken: when a good
    reading is due, the tick ends in the state the heater decision gives for
    that reading and this tick's target, with the request time kept. In
    particular a reading at or below target - hysteresis turns the heater on
    in the same tick.
   */
  lemma HeaterSeesFreshReading(st: ControlState, t: Millis, reading: real, target: real)
    requires ReadDue(st, t) && reading != DeviceDisconnectedC
    ensures Update(st, t, reading, target).action == ReadSensor
    ensures Update(st, t, reading, target).state == UpdateHeater(st.(temp := reading, tempTarget := target))
    ensures Update(st, t, reading, target).state.temp == reading
    ensures target != DeviceDisconnectedC && reading <= target - st.tempHysteresis ==>
      Update(st, t, reading, target).state.heater
  {
  }
}

=== FILE: json_io.dfy ===
/**
  The validate-then-apply update protocol shared by every editable entity
  (src/JsonIO.h, and the identical composition in src/Jsonable.h).

  Documents are modelled as records of optional fields; the wire encoding is
  not part of the model. Validation and serialisation are functions of the
  object, so the fact that they are `const` holds by construction.
 */
module JsonIO {

  /** One key of a partial document: missing, present with the expected type, or present with another type. */
  datatype Field<T> = Absent | Present(value: T) | WrongType

  /** The return value of `updateFromJSONSafe` and the object's state after it. */
  datatype Update<S> = Update(accepted: bool, state: S)

  /**
    `updateFromJSONSafe`: run `validateJSON`; if it fails report false and
    leave the object alone, otherwise run `updateFromJSON` and report true.
   */
  function UpdateFromJsonSafe<S, D>(validate: (S, D) -> bool, apply: (S, D) -> S, s: S, doc: D): (r: Update<S>)
    ensures r.accepted <==> validate(s, doc)
    ensures !r.accepted ==> r.state == s
    ensures r.accepted ==> r.state == apply(s, doc)
  {
    if !validate(s, doc) then Update(false, s) else Update(true, apply(s, doc))
  }
}

=== FILE: manager_json.dfy ===
/**
  `toJSON` of the set point, the daily schedule and the manager, as
  src/ThermiteUserSettingsManager.cpp writes them for its 24-byte revision,
  and a reader that takes such a document back to the settings it came from.

  Each `toJSON` returns false when ArduinoJson cannot allocate a node; memory
  exhaustion is not modelled, so the document is always complete.
 */
module ManagerJson {
  import opened OrderedJson
  import opened Names
  import opened Resolution
  import SetPoints
  import DailySchedules
  import UserSettings

  /** The manager's keys, in the order `toJSON` sets them. */
  const ManagerKeys: seq<string> := [
    "setPoints", "dailySchedules", "weeklySchedule", "weeklyScheduleTemporary",
    "temporaryStart", "temporaryEnd", "vacation", "vacationSetPointIndex"]

  /** `ThermiteSetPoint::toJSON`: `name`, then `tempTarget`. */
  function SetPointJson(sp: SetPoint): (j: Json)
    ensures j.JObject? && Keys(j.members) == ["name", "tempTarget"]
  {
    JObject([Member("name", JString(sp.name)), Member("tempTarget", JNumber(sp.tempTarget))])
  }

  /** `ThermiteDailySchedule::toJSON`: `name`, then `schedule` holding bytes 0..23 in order. */
  function DailyScheduleJson(ds: DailySchedule): (j: Json)
    requires |ds.schedule| >= HourBytes
    ensures j.JObject? && Keys(j.members) == ["name", "schedule"]
  {
    var bytes := seq(HourBytes, i requires 0 <= i < HourBytes => JInt(ds.schedule[i]));
    JObject([Member("name", JString(ds.name)), Member("schedule", JArray(bytes))])
  }

  /**
    `ThermiteUserSettingsManager::toJSON`: the four set points, then the four
    daily schedules, each in index order, then the six scalar fields.
   */
  function ToJson(s: Settings): (j: Json)
    requires Shaped(s)
    ensures j.JObject? && Keys(j.members) == ManagerKeys
    ensures j.members[0].value.JArray? && |j.members[0].value.items| == UserSettings.Slots
    ensures j.members[1].value.JArray? && |j.members[1].value.items| == UserSettings.Slots
  {
    var setPoints := seq(UserSettings.Slots, i requires 0 <= i < UserSettings.Slots => SetPointJson(s.setPoints[i]));
    var dailySchedules := seq(UserSettings.Slots, i requires 0 <= i < UserSettings.Slots && |s.dailySchedules[i].schedule| >= HourBytes =>
                                DailyScheduleJson(s.dailySchedules[i]));
    JObject([
      Member("setPoints", JArray(setPoints)),
      Member("dailySchedules", JArray(dailySchedules)),
      Member("weeklySchedule", JInt(s.weeklySchedule)),
      Member("weeklyScheduleTemporary", JInt(s.weeklyScheduleTemporary)),
      Member("temporaryStart", JInt(s.temporaryStart)),
      Member("temporaryEnd", JInt(s.temporaryEnd)),
      Member("vacation", JBool(s.vacation)),
      Member("vacationSetPointIndex", JInt(s.vacationSetPointIndex))])
  }

  function AsInt(j: Json): Option<int>
  {
    if j.JInt? then Some(j.n) else None
  }

  function AsNat(j: Json): Option<nat>
  {
    if j.JInt? && j.n >= 0 then Some(j.n) else None
  }

  function AsBool(j: Json): Option<bool>
  {
    if j.JBool? then Some(j.b) else None
  }

  function AsReal(j: Json): Option<real>
  {
    if j.JNumber? then Some(j.num) else None
  }

  /** A JSON string read as a C string: one holding a NUL has no such reading. */
  function AsName(j: Json): Option<CString>
  {
    if j.JString? && '\0' !in j.str then
      var name: CString := j.str;
      Some(name)
    else
      None
  }

  function AsItems(j: Json): Option<seq<Json>>
  {
    if j.JArray? then Some(j.items) else None
  }

  function AsMembers(j: Json): Option<seq<Member>>
  {
    if j.JObject? then Some(j.members) else None
  }

  /** Reads a set-point object: its `name` and `tempTarget` members. */
  function SetPointFrom(j: Json): Option<SetPoint>
  {
    var members :- AsMembers(j);
    var nameJson :- Lookup(members, "name");
    var name :- AsName(nameJson);
    var tempJson :- Lookup(members, "tempTarget");
    var temp :- AsReal(tempJson);
    Some(SetPoints.SetPoint(name, temp))
  }

  /** Reads a daily-schedule object: its `name` and the bytes of its `schedule` array. */
  function DailyScheduleFrom(j: Json): Option<DailySchedule>
  {
    var members :- AsMembers(j);
    var nameJson :- Lookup(members, "name");
    var name :- AsName(nameJson);
    var scheduleJson :- Lookup(members, "schedule");
    var items :- AsItems(scheduleJson);
    var bytes :- ListFrom(items, AsNat);
    Some(DailySchedules.DailySchedule(name, bytes))
  }

  /** Reads a manager document laid out as `toJSON` lays it out: its eight keys in order. */
  function FromJson(j: Json): (r: Option<Settings>)
    ensures r.Some? ==> j.JObject? && Keys(j.members) == ManagerKeys
  {
    var members :- AsMembers(j);
    if Keys(members) != ManagerKeys then None
    else
      var setPointItems :- AsItems(members[0].value);
      var setPoints :- ListFrom(setPointItems, SetPointFrom);
      var dailyScheduleItems :- AsItems(members[1].value);
      var dailySchedules :- ListFrom(dailyScheduleItems, DailyScheduleFrom);
      var weekly :- AsNat(members[2].value);
      var temporary :- AsNat(members[3].value);
      var start :- AsInt(members[4].value);
      var end :- AsInt(members[5].value);
      var vacation :- AsBool(members[6].value);
      var index :- AsNat(members[7].value);
      Some(Settings(setPoints, dailySchedules, weekly, temporary, start, end, vacation, index))
  }

  /** A set point's document reads back as the set point. */
  lemma SetPointRoundTrip(sp: SetPoint)
    ensures SetPointFrom(SetPointJson(sp)) == Some(sp)
  {
  }

  /** A 24-byte daily schedule's document reads back as the daily schedule. */
  lemma DailyScheduleRoundTrip(ds: DailySchedule)
    requires |ds.schedule| == HourBytes
    ensures DailyScheduleFrom(DailyScheduleJson(ds)) == Some(ds)
  {
    var items := seq(HourBytes, i requires 0 <= i < HourBytes => JInt(ds.schedule[i]));
    ListFromEach(items, AsNat, ds.schedule);
    var members := DailyScheduleJson(ds).members;
    assert Lookup(members, "name") == Some(JString(ds.name));
    assert Lookup(members, "schedule") == Some(JArray(items));
  }

  /** The manager's document reads back as the settings it was written from. */
  lemma ToJsonRoundTrip(s: Settings)
    requires Shaped(s)
    ensures FromJson(ToJson(s)) == Some(s)
  {
    var j := ToJson(s);
    var m := j.members;
    SetPointsRoundTrip(s);
    DailySchedulesRoundTrip(s);
    assert AsMembers(j) == Some(m);
    assert Keys(m) == ManagerKeys;
    assert AsItems(m[0].value) == Some(m[0].value.items);
    assert AsItems(m[1].value) == Some(m[1].value.items);
    assert AsNat(m[2].value) == Some(s.weeklySchedule);
    assert AsNat(m[3].value) == Some(s.weeklyScheduleTemporary);
    assert AsInt(m[4].value) == Some(s.temporaryStart);
    assert AsInt(m[5].value) == Some(s.temporaryEnd);
    assert AsBool(m[6].value) == Some(s.vacation);
    assert AsNat(m[7].value) == Some(s.vacationSetPointIndex);
  }

  /** The `setPoints` array reads back as the four set points. */
  lemma SetPointsRoundTrip(s: Settings)
    requires Shaped(s)
    ensures ListFrom(ToJson(s).members[0].value.items, SetPointFrom) == Some(s.setPoints)
  {
    var items := ToJson(s).members[0].value.items;
    forall i | 0 <= i < UserSettings.Slots
      ensures SetPointFrom(items[i]) == Some(s.setPoints[i])
    {
      SetPointRoundTrip(s.setPoints[i]);
    }
    ListFromEach(items, SetPointFrom, s.setPoints);
  }

  /** The `dailySchedules` array reads back as the four daily schedules. */
  lemma DailySchedulesRoundTrip(s: Settings)
    requires Shaped(s)
    ensures ListFrom(ToJson(s).members[1].value.items, DailyScheduleFrom) == Some(s.dailySchedules)
  {
    var items := ToJson(s).members[1].value.items;
    forall i | 0 <= i < UserSettings.Slots
      ensures DailyScheduleFrom(items[i]) == Some(s.dailySchedules[i])
    {
      DailyScheduleRoundTrip(s.dailySchedules[i]);
    }
    ListFromEach(items, DailyScheduleFrom, s.dailySchedules);
  }
}

=== FILE: names.dfy ===
/**
  Fixed-capacity names (src/ThermiteUserSettingsManager.h, `char _name[16]`).

  A name is stored with `strncpy(_name, name, 15); _name[15] = '\0';` and read
  back as a NUL-terminated C string, so at most 15 characters survive.
 */
module Names {

  /** Size of a name buffer, terminator included. */
  const NameBufferSize := 16
  /** The longest name a buffer holds. */
  const NameMax := 15

  /** A C string: the characters before its terminating NUL. */
  type CString = s: string | '\0' !in s

  function Min(a: int, b: int): int
  {
    if a <= b then a else b
  }

  /** `strncpy(dst, src, n)`: the first n characters of src, padded with NULs. */
  function Strncpy(src: CString, n: nat): (r: string)
    ensures |r| == n
  {
    seq(n, i requires 0 <= i < n => if i < |src| then src[i] else '\0')
  }

  /** The 16-byte buffer after `strncpy(_name, src, 15); _name[15] = '\0';`. */
  function NameBuffer(src: CString): (r: string)
    ensures |r| == NameBufferSize && r[NameMax] == '\0'
  {
    Strncpy(src, NameMax) + ['\0']
  }

  /** Reads a buffer as a C string: everything before the first NUL. */
  function ReadCString(buf: string): (r: CString)
    ensures |r| <= |buf| && r == buf[..|r|]
    ensures |r| < |buf| ==> buf[|r|] == '\0'
  {
    if |buf| == 0 || buf[0] == '\0' then "" else [buf[0]] + ReadCString(buf[1..])
  }

  /**
    The name an entity holds after storing src: the first min(15, |src|)
    characters of src, which fit the buffer.
   */
  function StoredName(src: CString): (r: CString)
    ensures r == src[..Min(NameMax, |src|)]
    ensures |r| <= NameMax
  {
    var k := Min(NameMax, |src|);
    var buf := NameBuffer(src);
    var p: CString := src[..k];
    assert buf == p + ['\0'] + buf[k + 1..];
    ReadUpToNul(p, buf[k + 1..]);
    ReadCString(buf)
  }

  /** Reading a buffer that holds p and then a NUL yields p. */
  lemma {:induction false} ReadUpToNul(p: CString, rest: string)
    ensures ReadCString(p + ['\0'] + rest) == p
  {
    var buf := p + ['\0'] + rest;
    if |p| > 0 {
      assert buf[0] == p[0];
      assert buf[1..] == p[1..] + ['\0'] + rest;
      ReadUpToNul(p[1..], rest);
    }
  }
}

=== FILE: ordered_json.dfy ===
/**
  JSON values as ArduinoJson builds them: objects keep their members in the
  order they were set, so a serialiser's key order is part of its result.
 */
module OrderedJson {

  datatype Option<T> = None | Some(value: T)
  {
    predicate IsFailure()
    {
      None?
    }

    function PropagateFailure<U>(): Option<U>
      requires None?
    {
      None
    }

    function Extract(): T
      requires Some?
    {
      value
    }
  }

  datatype Json =
    | JNumber(num: real)
    | JInt(n: int)
    | JBool(b: bool)
    | JString(str: string)
    | JArray(items: seq<Json>)
    | JObject(members: seq<Member>)

  datatype Member = Member(key: string, value: Json)

  /** The keys of an object, in order. */
  function Keys(members: seq<Member>): (r: seq<string>)
    ensures |r| == |members|
    ensures forall i :: 0 <= i < |r| ==> r[i] == members[i].key
  {
    if |members| == 0 then [] else [members[0].key] + Keys(members[1..])
  }

  /** The value of the first member with the given key. */
  function Lookup(members: seq<Member>, key: string): (r: Option<Json>)
    ensures r.None? <==> key !in Keys(members)
    ensures r.Some? ==> Member(key, r.value) in members
  {
    if |members| == 0 then None
    else if members[0].key == key then Some(members[0].value)
    else Lookup(members[1..], key)
  }

  /** Reads every item of an array with dec; fails if any item fails. */
  function ListFrom<T>(items: seq<Json>, dec: Json -> Option<T>): (r: Option<seq<T>>)
    ensures r.Some? ==> |r.value| == |items|
  {
    if |items| == 0 then Some([])
    else
      var head :- dec(items[0]);
      var tail :- ListFrom(items[1..], dec);
      Some([head] + tail)
  }

  /** An array whose every item reads back as the matching entry of xs reads back as xs. */
  lemma {:induction false} ListFromEach<T>(items: seq<Json>, dec: Json -> Option<T>, xs: seq<T>)
    requires |items| == |xs|
    requires forall i :: 0 <= i < |items| ==> dec(items[i]) == Some(xs[i])
    ensures ListFrom(items, dec) == Some(xs)
  {
    if |items| > 0 {
      ListFromEach(items[1..], dec, xs[1..]);
      assert [xs[0]] + xs[1..] == xs;
    }
  }
}

=== FILE: resolution.dfy ===
/**
  Target-temperature resolution of `ThermiteUserSettingsManager`, as
  src/ThermiteUserSettingsManager.cpp writes it.

  That file belongs to a different revision of the manager than its header:
  its daily schedules hold 24 bytes, byte h covering hour h with four
  15-minute fields, and instead of the header's temperature override it keeps
  a temporary weekly schedule with a window `[temporaryStart, temporaryEnd)`,
  a vacation flag and the index of the vacation set point. This module models
  that revision on its own terms: its settings, its defaults and its
  `getTargetTemperature`.

  The calendar fields of the moment t (`weekday(t)`, `hour(t)`, `minute(t)`
  from TimeLib) are an input, `Clock`, whose ranges TimeLib guarantees.
 */
module Resolution {
  import opened BitFields
  import opened DailyScheduleCodec
  import WeeklyScheduleCodec
  import SetPoints
  import DailySchedules
  import UserSettings

  /** Bytes in a daily schedule of this revision: one per hour. */
  const HourBytes := 24
  /** 15-minute intervals per day: four per byte. */
  const QuartersPerDay := 96

  type SetPoint = SetPoints.SetPoint
  type DailySchedule = DailySchedules.DailySchedule

  datatype Settings = Settings(
    setPoints: seq<SetPoint>,
    dailySchedules: seq<DailySchedule>,
    weeklySchedule: nat,
    weeklyScheduleTemporary: nat,
    temporaryStart: int,
    temporaryEnd: int,
    vacation: bool,
    vacationSetPointIndex: nat)

  /** `weekday(t)` (1 = Sunday), `hour(t)` and `minute(t)` of one moment. */
  datatype Clock = Clock(weekday: nat, hour: nat, minute: nat)

  predicate ValidClock(c: Clock)
  {
    1 <= c.weekday <= 7 && c.hour < 24 && c.minute < 60
  }

  /** Four set points and four daily schedules of 24 bytes each. */
  predicate Shaped(s: Settings)
  {
    && |s.setPoints| == UserSettings.Slots
    && |s.dailySchedules| == UserSettings.Slots
    && (forall k :: 0 <= k < UserSettings.Slots ==> |s.dailySchedules[k].schedule| == HourBytes)
  }

  /** Every index the resolution follows stays within its array. */
  predicate WellFormed(s: Settings)
  {
    Shaped(s) && (s.vacation ==> s.vacationSetPointIndex < UserSettings.Slots)
  }

  /** The temporary weekly schedule applies while `temporaryStart <= t < temporaryEnd`. */
  predicate TemporaryInEffect(s: Settings, t: int)
  {
    s.temporaryStart <= t < s.temporaryEnd
  }

  /** The weekly word in force at t. */
  function ActiveWeek(s: Settings, t: int): nat
  {
    if TemporaryInEffect(s, t) then s.weeklyScheduleTemporary else s.weeklySchedule
  }

  /**
    Reference resolution through the web client's codecs: the day's entry of
    the decoded weekly word picks a daily schedule, and the decoded entry for
    the clock's quarter hour picks a set point.
   */
  function ScheduledSetPoint(s: Settings, t: int, c: Clock): (i: nat)
    requires WellFormed(s) && ValidClock(c)
    ensures i < UserSettings.Slots
  {
    var day := WeeklyScheduleCodec.Decode(ActiveWeek(s, t))[c.weekday - 1];
    var schedule := s.dailySchedules[day].schedule;
    DecodeBytesEntry(schedule, 4 * c.hour + c.minute / 15);
    DecodeBytes(schedule)[4 * c.hour + c.minute / 15]
  }

  /** `(word >> (d * 2)) & 0x3` with d = weekday - 1: the daily schedule for the day. */
  function DayIndex(s: Settings, t: int, c: Clock): (i: nat)
    requires ValidClock(c)
    ensures i < UserSettings.Slots
    ensures i == WeeklyScheduleCodec.Decode(ActiveWeek(s, t))[c.weekday - 1]
  {
    var d := c.weekday - 1;
    Field(ActiveWeek(s, t), d)
  }

  /**
    `getTargetTemperature(t)`: the vacation set point while on vacation;
    otherwise the set point that byte `hour` of the day's daily schedule holds
    in field `minute / 15`.
   */
  function GetTargetTemperature(s: Settings, t: int, c: Clock): (r: real)
    requires WellFormed(s) && ValidClock(c)
    ensures s.vacation ==> r == s.setPoints[s.vacationSetPointIndex].tempTarget
    ensures !s.vacation ==> r == s.setPoints[ScheduledSetPoint(s, t, c)].tempTarget
    ensures exists k :: 0 <= k < UserSettings.Slots && r == s.setPoints[k].tempTarget
  {
    if s.vacation then
      s.setPoints[s.vacationSetPointIndex].tempTarget
    else
      var day := DayIndex(s, t, c);
      var schedule := s.dailySchedules[day].schedule;
      var i := Field(schedule[c.hour], c.minute / 15);
      ByteFieldEntry(schedule, c.hour, c.minute / 15);
      s.setPoints[i].tempTarget
  }

  /** On vacation the result is the vacation set point whatever the moment. */
  lemma VacationIgnoresClock(s: Settings, t1: int, c1: Clock, t2: int, c2: Clock)
    requires WellFormed(s) && ValidClock(c1) && ValidClock(c2) && s.vacation
    ensures GetTargetTemperature(s, t1, c1) == GetTargetTemperature(s, t2, c2)
  {
  }

  /** Outside its window the temporary weekly word has no influence. */
  lemma TemporaryWordUnusedOutsideWindow(s: Settings, t: int, c: Clock, word: nat)
    requires WellFormed(s) && ValidClock(c) && !TemporaryInEffect(s, t)
    ensures GetTargetTemperature(s.(weeklyScheduleTemporary := word), t, c) == GetTargetTemperature(s, t, c)
  {
  }

  /** Inside its window the normal weekly word has no influence. */
  lemma NormalWordUnusedInsideWindow(s: Settings, t: int, c: Clock, word: nat)
    requires WellFormed(s) && ValidClock(c) && TemporaryInEffect(s, t)
    ensures GetTargetTemperature(s.(weeklySchedule := word), t, c) == GetTargetTemperature(s, t, c)
  {
  }

  /** Two moments in the same 15-minute interval of the same day resolve alike. */
  lemma ConstantWithinQuarterHour(s: Settings, t1: int, t2: int, c1: Clock, c2: Clock)
    requires WellFormed(s) && ValidClock(c1) && ValidClock(c2)
    requires ActiveWeek(s, t1) == ActiveWeek(s, t2)
    requires c1.weekday == c2.weekday && c1.hour == c2.hour && c1.minute / 15 == c2.minute / 15
    ensures GetTargetTemperature(s, t1, c1) == GetTargetTemperature(s, t2, c2)
  {
  }

  /** Only the low 14 bits of a weekly word take part in the resolution. */
  lemma WeeklyHighBitsIgnored(s: Settings, t: int, c: Clock)
    requires WellFormed(s) && ValidClock(c)
    ensures GetTargetTemperature(s.(weeklySchedule := s.weeklySchedule % 0x4000,
                                    weeklyScheduleTemporary := s.weeklyScheduleTemporary % 0x4000), t, c)
      == GetTargetTemperature(s, t, c)
  {
    WeeklyScheduleCodec.DecodeDropsHighBits(s.weeklySchedule);
    WeeklyScheduleCodec.DecodeDropsHighBits(s.weeklyScheduleTemporary);
  }

  /** n copies of byte b. */
  function Repeat(b: nat, n: nat): (r: seq<nat>)
    ensures |r| == n
  {
    seq(n, _ => b)
  }

  /** The bytes "Work from Home" starts with: 0xaa seven times, 0x55, 0x00 nine times, 0x55 four times, 0xaa three times. */
  const WorkFromHomeBytes: seq<nat> :=
    Repeat(0xaa, 7) + [0x55] + Repeat(0x00, 9) + Repeat(0x55, 4) + Repeat(0xaa, 3)

  /** The bytes "At the Office" starts with: 0xaa seven times, 0x55 fourteen times, 0xaa three times. */
  const AtTheOfficeBytes: seq<nat> := Repeat(0xaa, 7) + Repeat(0x55, 14) + Repeat(0xaa, 3)

  /** The bytes "Day Off" and "Other" start with: 0xaa eight times, 0x55 fourteen times, 0xaa twice. */
  const DayOffBytes: seq<nat> := Repeat(0xaa, 8) + Repeat(0x55, 14) + Repeat(0xaa, 2)

  /**
    The manager's defaults. Every default name fits in 15 characters, so the
    constructors store the names unchanged.
   */
  const Defaults := Settings(
    [SetPoints.SetPoint("Home Office", 20.0), SetPoints.SetPoint("Normal", 17.0),
     SetPoints.SetPoint("Sleep", 16.0), SetPoints.SetPoint("Vacation", 14.0)],
    [DailySchedules.DailySchedule("Work from Home", WorkFromHomeBytes),
     DailySchedules.DailySchedule("At the Office", AtTheOfficeBytes),
     DailySchedules.DailySchedule("Day Off", DayOffBytes),
     DailySchedules.DailySchedule("Other", DayOffBytes)],
    0x2002, 0x2002, 0, 0, false, 3)

  /** Set point i in every 15-minute field: 0x00, 0x55, 0xaa or 0xff. */
  function HourByte(i: nat): nat
  {
    i * 0x55
  }

  /** An hour byte is the encoding of one index in all four fields. */
  lemma HourByteIsSlotsByte(i: nat)
    requires i < 4
    ensures HourByte(i) == SlotsByte(i, i, i, i)
  {
    SlotsByteIsSum(i, i, i, i);
  }

  /** The defaults are well formed, and the empty window keeps the temporary word out of use. */
  lemma DefaultsWellFormed(t: int)
    ensures WellFormed(Defaults)
    ensures !TemporaryInEffect(Defaults, t)
  {
  }

  /** The default weekly word 0x2002 assigns daily schedule 2 to Sunday and Saturday and 0 to the weekdays. */
  lemma DefaultWeek()
    ensures WeeklyScheduleCodec.Decode(0x2002) == [2, 0, 0, 0, 0, 0, 2]
  {
  }

  /**
    A schedule whose byte h repeats one set point in all four fields decodes,
    quarter hour by quarter hour, to that hour's set point.
   */
  lemma UniformHoursDecode(raw: seq<nat>, hourly: nat -> nat)
    requires |raw| == HourBytes
    requires forall h :: 0 <= h < HourBytes ==> hourly(h) < 4 && raw[h] == HourByte(hourly(h))
    ensures forall j :: 0 <= j < QuartersPerDay ==> DecodeBytes(raw)[j] == hourly(j / 4)
  {
    forall j | 0 <= j < QuartersPerDay
      ensures DecodeBytes(raw)[j] == hourly(j / 4)
    {
      var h, q := j / 4, j % 4;
      DecodeBytesEntry(raw, j);
      HourByteIsSlotsByte(hourly(h));
      SlotsByteFields(hourly(h), hourly(h), hourly(h), hourly(h), q);
    }
  }

  /** "Work from Home": sleep until 07:00, normal until 08:00, home office until 17:00, normal until 21:00, then sleep. */
  function WorkFromHomeHour(h: nat): nat
  {
    if h < 7 then 2 else if h < 8 then 1 else if h < 17 then 0 else if h < 21 then 1 else 2
  }

  /** "At the Office": sleep until 07:00, normal until 21:00, then sleep. */
  function AtTheOfficeHour(h: nat): nat
  {
    if h < 7 then 2 else if h < 21 then 1 else 2
  }

  /** "Day Off" and "Other": sleep until 08:00, normal until 22:00, then sleep. */
  function DayOffHour(h: nat): nat
  {
    if h < 8 then 2 else if h < 22 then 1 else 2
  }

  /** "Work from Home" follows the hour ranges its comment gives. */
  lemma WorkFromHomeFollowsComment()
    ensures forall j :: 0 <= j < QuartersPerDay ==> DecodeBytes(WorkFromHomeBytes)[j] == WorkFromHomeHour(j / 4)
  {
    var raw := WorkFromHomeBytes;
    forall h | 0 <= h < HourBytes
      ensures WorkFromHomeHour(h) < 4 && raw[h] == HourByte(WorkFromHomeHour(h))
    {
      if h < 7 {
        assert raw[h] == 0xaa;
      } else if h < 8 {
        assert raw[h] == 0x55;
      } else if h < 17 {
        assert raw[h] == 0;
      } else if h < 21 {
        assert raw[h] == 0x55;
      } else {
        assert raw[h] == 0xaa;
      }
    }
    UniformHoursDecode(raw, WorkFromHomeHour);
  }

  /** "At the Office" follows the hour ranges its comment gives. */
  lemma AtTheOfficeFollowsComment()
    ensures forall j :: 0 <= j < QuartersPerDay ==> DecodeBytes(AtTheOfficeBytes)[j] == AtTheOfficeHour(j / 4)
  {
    var raw := AtTheOfficeBytes;
    forall h | 0 <= h < HourBytes
      ensures AtTheOfficeHour(h) < 4 && raw[h] == HourByte(AtTheOfficeHour(h))
    {
      if h < 7 {
        assert raw[h] == 0xaa;
      } else if h < 21 {
        assert raw[h] == 0x55;
      } else {
        assert raw[h] == 0xaa;
      }
    }
    UniformHoursDecode(raw, AtTheOfficeHour);
  }

  /** "Day Off" and "Other" follow the hour ranges their comments give. */
  lemma DayOffFollowsComment()
    ensures forall j :: 0 <= j < QuartersPerDay ==> DecodeBytes(DayOffBytes)[j] == DayOffHour(j / 4)
  {
    var raw := DayOffBytes;
    forall h | 0 <= h < HourBytes
      ensures DayOffHour(h) < 4 && raw[h] == HourByte(DayOffHour(h))
    {
      if h < 8 {
        assert raw[h] == 0xaa;
      } else if h < 22 {
        assert raw[h] == 0x55;
      } else {
        assert raw[h] == 0xaa;
      }
    }
    UniformHoursDecode(raw, DayOffHour);
  }

  /**
    The set point the defaults select at clock c: the "Day Off" hours on
    Sunday and Saturday, the "Work from Home" hours on the other days.
   */
  function DefaultPlan(c: Clock): (i: nat)
    ensures i < 3
  {
    if c.weekday == 1 || c.weekday == 7 then DayOffHour(c.hour) else WorkFromHomeHour(c.hour)
  }

  /**
    With the defaults, the target is home office (20.0), normal (17.0) or
    sleep (16.0) as the default plan for the day and hour says.
   */
  lemma DefaultTargets(t: int, c: Clock)
    requires ValidClock(c)
    ensures WellFormed(Defaults)
    ensures GetTargetTemperature(Defaults, t, c) == [20.0, 17.0, 16.0][DefaultPlan(c)]
  {
    DefaultsWellFormed(t);
    DefaultWeek();
    WorkFromHomeFollowsComment();
    DayOffFollowsComment();
    var j := 4 * c.hour + c.minute / 15;
    DivModUnique(j, 4, c.hour, c.minute / 15);
    var day := WeeklyScheduleCodec.Decode(Defaults.weeklySchedule)[c.weekday - 1];
    assert day == if c.weekday == 1 || c.weekday == 7 then 2 else 0;
  }
}

=== FILE: set_point.dfy ===
/**
  `ThermiteSetPoint` (src/ThermiteUserSettingsManager.h): a named target
  temperature, edited through the validate-then-apply protocol.

  The bodies of `validateJSON` and `updateFromJSON` are not part of this
  model; their rules come from the Unity tests: an empty document is valid;
  a present `name` must hold 1..15 characters; a present `tempTarget` must
  lie in [TempMin, TempMax] (10.0, 15.0, 17.5 and 30.0 pass, -100.0 and 100.0
  fail); applying stores the truncated name and the given temperature.
 */
module SetPoints {
  import opened JsonIO
  import opened Names

  /** Lowest accepted target temperature, in degrees Celsius. */
  const TempMin: real := 10.0
  /** Highest accepted target temperature, in degrees Celsius. */
  const TempMax: real := 30.0

  datatype SetPoint = SetPoint(name: CString, tempTarget: real)

  /** A set-point document: optional `name` and `tempTarget` keys. */
  datatype SetPointDoc = SetPointDoc(name: Field<CString>, tempTarget: Field<real>)

  const EmptyDoc := SetPointDoc(Absent, Absent)

  predicate ValidName(name: string)
  {
    1 <= |name| <= NameMax
  }

  predicate ValidTemp(t: real)
  {
    TempMin <= t <= TempMax
  }

  /** What every accepted update keeps true of a set point. */
  predicate Valid(sp: SetPoint)
  {
    ValidName(sp.name) && ValidTemp(sp.tempTarget)
  }

  predicate NameFieldValid(f: Field<CString>)
  {
    match f
    case Absent => true
    case Present(n) => ValidName(n)
    case WrongType => false
  }

  predicate TempFieldValid(f: Field<real>)
  {
    match f
    case Absent => true
    case Present(t) => ValidTemp(t)
    case WrongType => false
  }

  /** `ThermiteSetPoint(name, tempTarget)`: keeps the first 15 characters of the name. */
  function Make(name: CString, tempTarget: real): (r: SetPoint)
    ensures r.name == name[..Min(NameMax, |name|)]
    ensures r.name == name <==> |name| <= NameMax
    ensures r.tempTarget == tempTarget
  {
    SetPoint(StoredName(name), tempTarget)
  }

  /** `validateJSON`: every present key is within bounds; absent keys are always fine. */
  function Validate(doc: SetPointDoc): (ok: bool)
    ensures ok <==>
      && !doc.name.WrongType? && !doc.tempTarget.WrongType?
      && (doc.name.Present? ==> 1 <= |doc.name.value| <= NameMax)
      && (doc.tempTarget.Present? ==> TempMin <= doc.tempTarget.value <= TempMax)
  {
    NameFieldValid(doc.name) && TempFieldValid(doc.tempTarget)
  }

  /** `updateFromJSON`: stores each present key; a name is truncated to 15 characters. */
  function Apply(sp: SetPoint, doc: SetPointDoc): (r: SetPoint)
    ensures doc.name.Present? ==> r.name == doc.name.value[..Min(NameMax, |doc.name.value|)]
    ensures !doc.name.Present? ==> r.name == sp.name
    ensures doc.tempTarget.Present? ==> r.tempTarget == doc.tempTarget.value
    ensures !doc.tempTarget.Present? ==> r.tempTarget == sp.tempTarget
  {
    var name := if doc.name.Present? then StoredName(doc.name.value) else sp.name;
    var temp := if doc.tempTarget.Present? then doc.tempTarget.value else sp.tempTarget;
    SetPoint(name, temp)
  }

  /** `toJSON`: both keys, holding the stored values. */
  function ToDoc(sp: SetPoint): SetPointDoc
  {
    SetPointDoc(Present(sp.name), Present(sp.tempTarget))
  }

  /** `updateFromJSONSafe` for a set point. */
  function UpdateSafe(sp: SetPoint, doc: SetPointDoc): (r: Update<SetPoint>)
    ensures r.accepted <==> Validate(doc)
    ensures !r.accepted ==> r.state == sp
    ensures r.accepted ==> r.state == Apply(sp, doc)
    ensures Valid(sp) && r.accepted ==> Valid(r.state)
  {
    ApplyKeepsValid(sp, doc);
    UpdateFromJsonSafe((s: SetPoint, d: SetPointDoc) => Validate(d), Apply, sp, doc)
  }

  /** Applying a valid document to a valid set point yields a valid set point. */
  lemma ApplyKeepsValid(sp: SetPoint, doc: SetPointDoc)
    ensures Valid(sp) && Validate(doc) ==> Valid(Apply(sp, doc))
  {
  }

  /** The empty document validates and changes nothing. */
  lemma EmptyDocIsNoOp(sp: SetPoint)
    ensures UpdateSafe(sp, EmptyDoc) == Update(true, sp)
  {
  }

  /**
    Round trip: the document `toJSON` writes for a valid set point validates,
    and applying it to any set point reproduces the original.
   */
  lemma ToDocRoundTrip(sp: SetPoint, other: SetPoint)
    requires Valid(sp)
    ensures Validate(ToDoc(sp))
    ensures Apply(other, ToDoc(sp)) == sp
  {
    assert sp.name[..Min(NameMax, |sp.name|)] == sp.name;
  }
}

=== FILE: settings_cases.dfy ===
/**
  The literal cases of the Unity tests
  (test/test_embedded/TestThermiteUserSettingsManager.cpp), stated against
  the model of the 12-byte revision.
 */
module SettingsCases {
  import opened JsonIO
  import opened SetPoints
  import opened DailySchedules
  import opened UserSettings
  import opened Names

  const LongName: CString := "this name is far, far, far too long"

  /** Bytes 0, 1, ..., n - 1 as JSON integers. */
  function Counting(n: nat): (r: seq<int>)
    ensures |r| == n && forall i :: 0 <= i < n ==> r[i] == i
  {
    seq(n, i requires 0 <= i < n => i)
  }

  /** Set-point name cases: "foo2" accepted and stored, "" rejected, a long name rejected yet stored truncated. */
  lemma SetPointNameCases()
    ensures SetPoints.Validate(SetPointDoc(Present("foo2"), Absent))
    ensures SetPoints.Apply(SetPoints.Make("foo", 16.0), SetPointDoc(Present("foo2"), Absent)).name == "foo2"
    ensures !SetPoints.Validate(SetPointDoc(Present(""), Absent))
    ensures !SetPoints.Validate(SetPointDoc(Present(LongName), Absent))
    ensures SetPoints.Apply(SetPoints.Make("foo", 16.0), SetPointDoc(Present(LongName), Absent)).name == "this name is fa"
  {
  }

  /** Set-point temperature cases: 15.0 and 17.5 stored, -100.0 and 100.0 rejected. */
  lemma SetPointTempCases()
    ensures SetPoints.Validate(SetPointDoc(Absent, Present(15.0)))
    ensures SetPoints.Apply(SetPoints.Make("foo", 16.0), SetPointDoc(Absent, Present(15.0))).tempTarget == 15.0
    ensures !SetPoints.Validate(SetPointDoc(Absent, Present(-100.0)))
    ensures !SetPoints.Validate(SetPointDoc(Absent, Present(100.0)))
    ensures SetPoints.Validate(SetPointDoc(Present("foo3"), Present(17.5)))
    ensures SetPoints.Apply(SetPoints.Make("foo", 16.0), SetPointDoc(Present("foo3"), Present(17.5)))
      == SetPoint("foo3", 17.5)
  {
  }

  /** `toJSON` of a set point carries its fields and validates. */
  lemma SetPointToDocCase()
    ensures SetPoints.ToDoc(SetPoints.Make("foo", 16.0)) == SetPointDoc(Present("foo"), Present(16.0))
    ensures SetPoints.Validate(SetPoints.ToDoc(SetPoints.Make("foo", 16.0)))
  {
  }

  /** Daily-schedule name cases mirror the set-point ones. */
  lemma DailyNameCases(raw: seq<nat>)
    requires |raw| == 12
    ensures DailySchedules.Validate(DailySchedules.EmptyDoc)
    ensures DailySchedules.Validate(DailyScheduleDoc(Present("foo2"), Absent))
    ensures !DailySchedules.Validate(DailyScheduleDoc(Present(""), Absent))
    ensures !DailySchedules.Validate(DailyScheduleDoc(Present(LongName), Absent))
    ensures DailySchedules.Apply(DailySchedules.Make("foo", raw, 12), DailyScheduleDoc(Present(LongName), Absent)).name
      == "this name is fa"
  {
  }

  /** Schedule arrays: exactly 12 entries in 0..255 are accepted and copied; every other tested array is rejected. */
  lemma DailyScheduleArrayCases(ds: DailySchedule)
    requires |ds.schedule| == 12
    ensures DailySchedules.Validate(DailyScheduleDoc(Absent, Present(Counting(12))))
    ensures DailySchedules.Apply(ds, DailyScheduleDoc(Absent, Present(Counting(12)))).schedule == Counting(12)
    ensures !DailySchedules.Validate(DailyScheduleDoc(Absent, Present([])))
    ensures !DailySchedules.Validate(DailyScheduleDoc(Absent, Present(Counting(11))))
    ensures !DailySchedules.Validate(DailyScheduleDoc(Absent, Present(Counting(13))))
    ensures !DailySchedules.Validate(DailyScheduleDoc(Absent, WrongType))
    ensures !DailySchedules.Validate(DailyScheduleDoc(Absent, Present(Counting(11) + [-1])))
    ensures !DailySchedules.Validate(DailyScheduleDoc(Absent, Present(Counting(11) + [0x100])))
  {
    assert (Counting(11) + [-1])[11] == -1;
    assert (Counting(11) + [0x100])[11] == 0x100;
  }

  /** `toJSON` of a daily schedule carries its name and its 12 bytes. */
  lemma DailyToDocCase()
    ensures DailySchedules.ToDoc(DailySchedules.Make("foo",
      [0xde, 0xad, 0xbe, 0xef, 0xca, 0xfe, 0x13, 0x37, 0x12, 0x34, 0x56, 0x78], 12))
      == DailyScheduleDoc(Present("foo"),
      Present([0xde, 0xad, 0xbe, 0xef, 0xca, 0xfe, 0x13, 0x37, 0x12, 0x34, 0x56, 0x78]))
  {
    var raw: seq<nat> := [0xde, 0xad, 0xbe, 0xef, 0xca, 0xfe, 0x13, 0x37, 0x12, 0x34, 0x56, 0x78];
    assert raw[..12] == raw;
  }

  /** Four set-point documents are required: none, three, five or a non-array are rejected. */
  lemma SetPointsArrayCases(s: Settings, d: SetPointDoc)
    ensures UserSettings.Validate(s, UserSettings.EmptyDoc)
    ensures !UserSettings.Validate(s, UserSettings.EmptyDoc.(setPoints := Present([])))
    ensures !UserSettings.Validate(s, UserSettings.EmptyDoc.(setPoints := Present([d, d, d])))
    ensures !UserSettings.Validate(s, UserSettings.EmptyDoc.(setPoints := Present([d, d, d, d, d])))
    ensures !UserSettings.Validate(s, UserSettings.EmptyDoc.(setPoints := WrongType))
  {
  }

  /** Four daily-schedule documents are required: none, three, five or a non-array are rejected. */
  lemma DailySchedulesArrayCases(s: Settings, d: DailyScheduleDoc)
    ensures !UserSettings.Validate(s, UserSettings.EmptyDoc.(dailySchedules := Present([])))
    ensures !UserSettings.Validate(s, UserSettings.EmptyDoc.(dailySchedules := Present([d, d, d])))
    ensures !UserSettings.Validate(s, UserSettings.EmptyDoc.(dailySchedules := Present([d, d, d, d, d])))
    ensures !UserSettings.Validate(s, UserSettings.EmptyDoc.(dailySchedules := WrongType))
  {
  }

  /** The four set points the manager test builds. */
  const TestSetPoints: seq<SetPoint> := [SetPoint("way too cold", 10.0), SetPoint("winter min", 21.0),
                                         SetPoint("summer max", 26.0), SetPoint("way too hot", 30.0)]

  /** The set points "way too cold" 10.0 through "way too hot" 30.0 are accepted and stored in order. */
  lemma SetPointsValidCase(s: Settings)
    requires UserSettings.Valid(s)
    ensures UserSettings.Validate(s, UserSettings.EmptyDoc.(setPoints := Present(SetPointDocs(TestSetPoints))))
    ensures UserSettings.Apply(s, UserSettings.EmptyDoc.(setPoints := Present(SetPointDocs(TestSetPoints)))).setPoints
      == TestSetPoints
  {
    UserSettings.ApplySetPointDocs(s, TestSetPoints);
  }

  /** Four copies of the all-zero "foo" schedule are accepted and stored. */
  lemma DailySchedulesValidCase(s: Settings)
    requires UserSettings.Valid(s)
    ensures var foo := DailySchedules.Make("foo", seq(12, i => 0), 12);
      UserSettings.Validate(s, UserSettings.EmptyDoc.(dailySchedules := Present(DailyScheduleDocs([foo, foo, foo, foo]))))
      && UserSettings.Apply(s, UserSettings.EmptyDoc.(dailySchedules := Present(DailyScheduleDocs([foo, foo, foo, foo])))).dailySchedules
        == [foo, foo, foo, foo]
  {
    var foo := DailySchedules.Make("foo", seq(12, i => 0), 12);
    assert foo.name == "foo";
    UserSettings.ApplyDailyScheduleDocs(s, [foo, foo, foo, foo]);
  }

  /** Weekly words: 0x2a02 accepted and stored; 0x10000, 0x4000 and -1 rejected. */
  lemma WeeklyCases(s: Settings)
    ensures UserSettings.Validate(s, UserSettings.EmptyDoc.(weeklySchedule := Present(0x2a02)))
    ensures UserSettings.Apply(s, UserSettings.EmptyDoc.(weeklySchedule := Present(0x2a02))).weeklySchedule == 0x2a02
    ensures !UserSettings.Validate(s, UserSettings.EmptyDoc.(weeklySchedule := Present(0x10000)))
    ensures !UserSettings.Validate(s, UserSettings.EmptyDoc.(weeklySchedule := Present(0x4000)))
    ensures !UserSettings.Validate(s, UserSettings.EmptyDoc.(weeklySchedule := Present(-1)))
  {
  }

  /** Override temperature: 17.5 accepted and stored; -100.0 and 100.0 rejected. */
  lemma TempOverrideCases(s: Settings)
    ensures UserSettings.Validate(s, UserSettings.EmptyDoc.(tempOverride := Present(17.5)))
    ensures UserSettings.Apply(s, UserSettings.EmptyDoc.(tempOverride := Present(17.5))).tempOverride == 17.5
    ensures !UserSettings.Validate(s, UserSettings.EmptyDoc.(tempOverride := Present(-100.0)))
    ensures !UserSettings.Validate(s, UserSettings.EmptyDoc.(tempOverride := Present(100.0)))
  {
  }

  /** Override window: a forward window is stored; a zero next to a non-zero, or start after end, is rejected. */
  lemma OverrideWindowCases(s: Settings)
    ensures var doc := UserSettings.EmptyDoc.(overrideStart := Present(1612242000), overrideEnd := Present(1612846800));
      UserSettings.Validate(s, doc)
      && UserSettings.Apply(s, doc).overrideStart == 1612242000
      && UserSettings.Apply(s, doc).overrideEnd == 1612846800
    ensures !UserSettings.Validate(s, UserSettings.EmptyDoc.(overrideStart := Present(0), overrideEnd := Present(1612846800)))
    ensures !UserSettings.Validate(s, UserSettings.EmptyDoc.(overrideStart := Present(1612242000), overrideEnd := Present(0)))
    ensures !UserSettings.Validate(s, UserSettings.EmptyDoc.(overrideStart := Present(1612846800), overrideEnd := Present(1612242000)))
  {
  }

  /** `toJSON` of the manager reports every stored field, whatever their values. */
  lemma ManagerToDocCase(s: Settings)
    requires |s.setPoints| == Slots && |s.dailySchedules| == Slots
    ensures UserSettings.ToDoc(s).setPoints.Present? && UserSettings.ToDoc(s).dailySchedules.Present?
    ensures forall i :: 0 <= i < Slots ==>
      UserSettings.ToDoc(s).setPoints.value[i] == SetPointDoc(Present(s.setPoints[i].name), Present(s.setPoints[i].tempTarget))
    ensures forall i :: 0 <= i < Slots ==>
      UserSettings.ToDoc(s).dailySchedules.value[i]
        == DailyScheduleDoc(Present(s.dailySchedules[i].name), Present(s.dailySchedules[i].schedule))
    ensures UserSettings.ToDoc(s).weeklySchedule == Present(s.weeklySchedule)
    ensures UserSettings.ToDoc(s).tempOverride == Present(s.tempOverride)
    ensures UserSettings.ToDoc(s).overrideStart == Present(s.overrideStart)
    ensures UserSettings.ToDoc(s).overrideEnd == Present(s.overrideEnd)
  {
  }

  /** The document `toJSON` writes for valid settings is accepted by the same manager. */
  lemma ManagerToDocValidates(s: Settings)
    requires UserSettings.Valid(s)
    ensures UserSettings.Validate(s, UserSettings.ToDoc(s))
  {
    UserSettings.ToDocRoundTrip(s, s);
  }
}

=== FILE: user_settings.dfy ===
/**
  `ThermiteUserSettingsManager` in its 12-byte revision
  (src/ThermiteUserSettingsManager.h): four set points, four daily schedules,
  the weekly word and a time-bounded temperature override, edited through
  the validate-then-apply protocol.

  Validation rules come from the Unity tests: an empty document is valid;
  `setPoints` and `dailySchedules` must be arrays of exactly four documents,
  each valid for its entity; `weeklySchedule` must lie in 0..0x3FFF;
  `tempOverride` within the set-point temperature bounds; `overrideStart` and
  `overrideEnd` both zero or both non-zero with start no later than end.
 */
module UserSettings {
  import opened JsonIO
  import opened SetPoints
  import opened DailySchedules
  import opened DailyScheduleCodec
  import WeeklyScheduleCodec

  /** Set points and daily schedules held by the manager. */
  const Slots := 4

  datatype Settings = Settings(
    setPoints: seq<SetPoint>,
    dailySchedules: seq<DailySchedule>,
    weeklySchedule: nat,
    tempOverride: real,
    overrideStart: int,
    overrideEnd: int)

  /** A settings document; every key is optional. */
  datatype SettingsDoc = SettingsDoc(
    setPoints: Field<seq<SetPointDoc>>,
    dailySchedules: Field<seq<DailyScheduleDoc>>,
    weeklySchedule: Field<int>,
    tempOverride: Field<real>,
    overrideStart: Field<int>,
    overrideEnd: Field<int>)

  const EmptyDoc := SettingsDoc(Absent, Absent, Absent, Absent, Absent, Absent)

  /** Both ends zero (no override) or both non-zero with start no later than end. */
  predicate OverrideWindowValid(start: int, end: int)
  {
    (start == 0 && end == 0) || (start != 0 && end != 0 && start <= end)
  }

  /** The override takes effect only when both start and end are non-zero. */
  predicate OverrideInEffect(s: Settings)
  {
    s.overrideStart != 0 && s.overrideEnd != 0
  }

  /** What every accepted update keeps true of the manager. */
  predicate Valid(s: Settings)
  {
    && |s.setPoints| == Slots
    && (forall i :: 0 <= i < Slots ==> SetPoints.Valid(s.setPoints[i]))
    && |s.dailySchedules| == Slots
    && (forall i :: 0 <= i < Slots ==> DailySchedules.Valid(s.dailySchedules[i]))
    && s.weeklySchedule <= WeeklyScheduleCodec.WeeklyMax
    && ValidTemp(s.tempOverride)
    && OverrideWindowValid(s.overrideStart, s.overrideEnd)
  }

  predicate SetPointsFieldValid(f: Field<seq<SetPointDoc>>)
  {
    match f
    case Absent => true
    case Present(a) => |a| == Slots && forall i :: 0 <= i < |a| ==> SetPoints.Validate(a[i])
    case WrongType => false
  }

  predicate DailySchedulesFieldValid(f: Field<seq<DailyScheduleDoc>>)
  {
    match f
    case Absent => true
    case Present(a) => |a| == Slots && forall i :: 0 <= i < |a| ==> DailySchedules.Validate(a[i])
    case WrongType => false
  }

  predicate WeeklyFieldValid(f: Field<int>)
  {
    match f
    case Absent => true
    case Present(w) => 0 <= w <= WeeklyScheduleCodec.WeeklyMax
    case WrongType => false
  }

  /** A present override bound, or the stored one when the key is absent. */
  function BoundAfter(f: Field<int>, stored: int): int
  {
    if f.Present? then f.value else stored
  }

  /**
    The override keys: when either is given, the window they leave behind
    (a missing end taken from the stored settings) must be valid.
   */
  predicate OverrideFieldsValid(s: Settings, start: Field<int>, end: Field<int>)
  {
    && !start.WrongType? && !end.WrongType?
    && ((start.Absent? && end.Absent?)
        || OverrideWindowValid(BoundAfter(start, s.overrideStart), BoundAfter(end, s.overrideEnd)))
  }

  /** `validateJSON` of the manager; reads the settings, changes nothing. */
  function Validate(s: Settings, doc: SettingsDoc): (ok: bool)
    ensures ok ==> doc.setPoints.Absent? || (doc.setPoints.Present? && |doc.setPoints.value| == Slots)
    ensures ok ==> doc.dailySchedules.Absent? || (doc.dailySchedules.Present? && |doc.dailySchedules.value| == Slots)
    ensures ok && doc.weeklySchedule.Present? ==> 0 <= doc.weeklySchedule.value <= 0x3FFF
    ensures ok && doc.tempOverride.Present? ==> TempMin <= doc.tempOverride.value <= TempMax
    ensures ok && doc.overrideStart.Present? && doc.overrideEnd.Present? ==>
      (doc.overrideStart.value == 0 <==> doc.overrideEnd.value == 0)
      && doc.overrideStart.value <= doc.overrideEnd.value
    ensures ok <==>
      && (doc.setPoints.Present? ==>
            |doc.setPoints.value| == Slots && forall i :: 0 <= i < Slots ==> SetPoints.Validate(doc.setPoints.value[i]))
      && (doc.dailySchedules.Present? ==>
            |doc.dailySchedules.value| == Slots && forall i :: 0 <= i < Slots ==> DailySchedules.Validate(doc.dailySchedules.value[i]))
      && !doc.setPoints.WrongType? && !doc.dailySchedules.WrongType?
      && !doc.weeklySchedule.WrongType? && !doc.tempOverride.WrongType?
      && !doc.overrideStart.WrongType? && !doc.overrideEnd.WrongType?
      && (doc.weeklySchedule.Present? ==> 0 <= doc.weeklySchedule.value <= 0x3FFF)
      && (doc.tempOverride.Present? ==> TempMin <= doc.tempOverride.value <= TempMax)
      && (doc.overrideStart.Present? || doc.overrideEnd.Present? ==>
            OverrideWindowValid(BoundAfter(doc.overrideStart, s.overrideStart), BoundAfter(doc.overrideEnd, s.overrideEnd)))
  {
    && SetPointsFieldValid(doc.setPoints)
    && DailySchedulesFieldValid(doc.dailySchedules)
    && WeeklyFieldValid(doc.weeklySchedule)
    && TempFieldValid(doc.tempOverride)
    && OverrideFieldsValid(s, doc.overrideStart, doc.overrideEnd)
  }

  /** Applies document i to entity i, for the positions the array covers. */
  function ApplySetPoints(sps: seq<SetPoint>, docs: seq<SetPointDoc>): (r: seq<SetPoint>)
    ensures |r| == |sps|
    ensures forall i :: 0 <= i < |sps| && i < |docs| ==> r[i] == SetPoints.Apply(sps[i], docs[i])
    ensures forall i :: |docs| <= i < |sps| ==> r[i] == sps[i]
  {
    seq(|sps|, i requires 0 <= i < |sps| => if i < |docs| then SetPoints.Apply(sps[i], docs[i]) else sps[i])
  }

  function ApplyDailySchedules(dss: seq<DailySchedule>, docs: seq<DailyScheduleDoc>): (r: seq<DailySchedule>)
    ensures |r| == |dss|
    ensures forall i :: 0 <= i < |dss| && i < |docs| ==> r[i] == DailySchedules.Apply(dss[i], docs[i])
    ensures forall i :: |docs| <= i < |dss| ==> r[i] == dss[i]
  {
    seq(|dss|, i requires 0 <= i < |dss| => if i < |docs| then DailySchedules.Apply(dss[i], docs[i]) else dss[i])
  }

  /** `updateFromJSON` of the manager: every present key is stored; `weeklySchedule` as a uint16_t. */
  function Apply(s: Settings, doc: SettingsDoc): (r: Settings)
    ensures doc.setPoints.Present? ==> r.setPoints == ApplySetPoints(s.setPoints, doc.setPoints.value)
    ensures !doc.setPoints.Present? ==> r.setPoints == s.setPoints
    ensures doc.dailySchedules.Present? ==>
      r.dailySchedules == ApplyDailySchedules(s.dailySchedules, doc.dailySchedules.value)
    ensures !doc.dailySchedules.Present? ==> r.dailySchedules == s.dailySchedules
    ensures doc.weeklySchedule.Present? && 0 <= doc.weeklySchedule.value < 0x10000 ==>
      r.weeklySchedule == doc.weeklySchedule.value
    ensures !doc.weeklySchedule.Present? ==> r.weeklySchedule == s.weeklySchedule
    ensures r.tempOverride == BoundAfterReal(doc.tempOverride, s.tempOverride)
    ensures r.overrideStart == BoundAfter(doc.overrideStart, s.overrideStart)
    ensures r.overrideEnd == BoundAfter(doc.overrideEnd, s.overrideEnd)
  {
    Settings(
      if doc.setPoints.Present? then ApplySetPoints(s.setPoints, doc.setPoints.value) else s.setPoints,
      if doc.dailySchedules.Present? then ApplyDailySchedules(s.dailySchedules, doc.dailySchedules.value) else s.dailySchedules,
      if doc.weeklySchedule.Present? then doc.weeklySchedule.value % 0x10000 else s.weeklySchedule,
      if doc.tempOverride.Present? then doc.tempOverride.value else s.tempOverride,
      if doc.overrideStart.Present? then doc.overrideStart.value else s.overrideStart,
      if doc.overrideEnd.Present? then doc.overrideEnd.value else s.overrideEnd)
  }

  function BoundAfterReal(f: Field<real>, stored: real): real
  {
    if f.Present? then f.value else stored
  }

  /** The `setPoints` array `toJSON` writes: one document per set point, in index order. */
  function SetPointDocs(sps: seq<SetPoint>): (r: seq<SetPointDoc>)
    ensures |r| == |sps| && forall i :: 0 <= i < |sps| ==> r[i] == SetPoints.ToDoc(sps[i])
  {
    seq(|sps|, i requires 0 <= i < |sps| => SetPoints.ToDoc(sps[i]))
  }

  /** The `dailySchedules` array `toJSON` writes: one document per daily schedule, in index order. */
  function DailyScheduleDocs(dss: seq<DailySchedule>): (r: seq<DailyScheduleDoc>)
    ensures |r| == |dss| && forall i :: 0 <= i < |dss| ==> r[i] == DailySchedules.ToDoc(dss[i])
  {
    seq(|dss|, i requires 0 <= i < |dss| => DailySchedules.ToDoc(dss[i]))
  }

  /** `toJSON` of the manager: every key, holding the stored values. */
  function ToDoc(s: Settings): SettingsDoc
  {
    SettingsDoc(
      Present(SetPointDocs(s.setPoints)),
      Present(DailyScheduleDocs(s.dailySchedules)),
      Present(s.weeklySchedule),
      Present(s.tempOverride),
      Present(s.overrideStart),
      Present(s.overrideEnd))
  }

  /**
    `updateFromJSONSafe` for the manager: the update is all or nothing, and
    an accepted update keeps the manager valid.
   */
  function UpdateSafe(s: Settings, doc: SettingsDoc): (r: Update<Settings>)
    ensures r.accepted <==> Validate(s, doc)
    ensures !r.accepted ==> r.state == s
    ensures r.accepted ==> r.state == Apply(s, doc)
    ensures Valid(s) && r.accepted ==> Valid(r.state)
  {
    ApplyKeepsValid(s, doc);
    UpdateFromJsonSafe(Validate, Apply, s, doc)
  }

  /** Applying a document the settings validate keeps them valid. */
  lemma ApplyKeepsValid(s: Settings, doc: SettingsDoc)
    ensures Valid(s) && Validate(s, doc) ==> Valid(Apply(s, doc))
  {
    if Valid(s) && Validate(s, doc) {
      var r := Apply(s, doc);
      forall i | 0 <= i < Slots
        ensures SetPoints.Valid(r.setPoints[i])
      {
        if doc.setPoints.Present? {
          SetPoints.ApplyKeepsValid(s.setPoints[i], doc.setPoints.value[i]);
        }
      }
      forall i | 0 <= i < Slots
        ensures DailySchedules.Valid(r.dailySchedules[i])
      {
        if doc.dailySchedules.Present? {
          DailySchedules.ApplyKeepsValid(s.dailySchedules[i], doc.dailySchedules.value[i]);
        }
      }
    }
  }

  /** The empty document validates and changes nothing. */
  lemma EmptyDocIsNoOp(s: Settings)
    ensures UpdateSafe(s, EmptyDoc) == Update(true, s)
  {
  }

  /** A valid manager either has no override or an override window in effect with start <= end. */
  lemma OverrideWindowOfValid(s: Settings)
    requires Valid(s)
    ensures s.overrideStart == 0 <==> s.overrideEnd == 0
    ensures OverrideInEffect(s) ==> s.overrideStart <= s.overrideEnd
  {
  }

  /**
    Round trip: the document `toJSON` writes for valid settings validates
    against any valid manager, and applying it reproduces the settings.
   */
  lemma ToDocRoundTrip(s: Settings, other: Settings)
    requires Valid(s) && Valid(other)
    ensures Validate(other, ToDoc(s))
    ensures Apply(other, ToDoc(s)) == s
  {
    var doc := ToDoc(s);
    var r := Apply(other, doc);
    forall i | 0 <= i < Slots
      ensures SetPoints.Validate(doc.setPoints.value[i]) && r.setPoints[i] == s.setPoints[i]
    {
      SetPoints.ToDocRoundTrip(s.setPoints[i], other.setPoints[i]);
    }
    forall i | 0 <= i < Slots
      ensures DailySchedules.Validate(doc.dailySchedules.value[i]) && r.dailySchedules[i] == s.dailySchedules[i]
    {
      DailySchedules.ToDocRoundTrip(s.dailySchedules[i], other.dailySchedules[i]);
    }
    assert r.setPoints == s.setPoints;
    assert r.dailySchedules == s.dailySchedules;
  }

  /**
    Applying four set-point documents written by `toJSON` replaces the
    manager's set points with exactly those set points.
   */
  lemma ApplySetPointDocs(s: Settings, sps: seq<SetPoint>)
    requires Valid(s) && |sps| == Slots
    requires forall i :: 0 <= i < Slots ==> SetPoints.Valid(sps[i])
    ensures Validate(s, EmptyDoc.(setPoints := Present(SetPointDocs(sps))))
    ensures Apply(s, EmptyDoc.(setPoints := Present(SetPointDocs(sps)))).setPoints == sps
  {
    var docs := SetPointDocs(sps);
    var r := ApplySetPoints(s.setPoints, docs);
    forall i | 0 <= i < Slots
      ensures SetPoints.Validate(docs[i]) && r[i] == sps[i]
    {
      SetPoints.ToDocRoundTrip(sps[i], s.setPoints[i]);
    }
  }

  /**
    Applying four daily-schedule documents written by `toJSON` replaces the
    manager's daily schedules with exactly those schedules.
   */
  lemma ApplyDailyScheduleDocs(s: Settings, dss: seq<DailySchedule>)
    requires Valid(s) && |dss| == Slots
    requires forall i :: 0 <= i < Slots ==> DailySchedules.Valid(dss[i])
    ensures Validate(s, EmptyDoc.(dailySchedules := Present(DailyScheduleDocs(dss))))
    ensures Apply(s, EmptyDoc.(dailySchedules := Present(DailyScheduleDocs(dss)))).dailySchedules == dss
  {
    var docs := DailyScheduleDocs(dss);
    var r := ApplyDailySchedules(s.dailySchedules, docs);
    forall i | 0 <= i < Slots
      ensures DailySchedules.Validate(docs[i]) && r[i] == dss[i]
    {
      DailySchedules.ToDocRoundTrip(dss[i], s.dailySchedules[i]);
    }
  }

  /** Every stored weekly word decodes to seven daily-schedule indices, each a valid position. */
  lemma WeeklyOfValid(s: Settings)
    requires Valid(s)
    ensures forall d :: 0 <= d < WeeklyScheduleCodec.DaysPerWeek ==>
      WeeklyScheduleCodec.Decode(s.weeklySchedule)[d] < |s.dailySchedules|
    ensures WeeklyScheduleCodec.Encode(WeeklyScheduleCodec.Decode(s.weeklySchedule)) == s.weeklySchedule
  {
    WeeklyScheduleCodec.EncodeDecode(s.weeklySchedule);
  }
}

=== FILE: weekly_schedule_codec.dfy ===
/**
  The web client's weekly-schedule codec (web/src/lib/WeeklySchedule.js).

  The weekly word holds seven two-bit daily-schedule indices, Sunday first,
  in its low 14 bits; a well-formed word is at most 0x3FFF.
 */
module WeeklyScheduleCodec {
  import opened BitFields

  /** Days in the weekly word. */
  const DaysPerWeek := 7
  /** The largest well-formed weekly word: 7 * 2 = 14 bits. */
  const WeeklyMax := 0x3FFF

  /** `decode`: entry d is `(raw >> 2d) & 0x3`. */
  function Decode(raw: nat): (r: seq<nat>)
    ensures |r| == DaysPerWeek && AllTwoBit(r)
  {
    [Field(raw, 0), Field(raw, 1), Field(raw, 2), Field(raw, 3),
     Field(raw, 4), Field(raw, 5), Field(raw, 6)]
  }

  /** `encode`: `w0 | (w1 << 2) | (w2 << 4) | ... | (w6 << 12)`, or-ed from the left. */
  function Encode(week: seq<nat>): (r: nat)
    requires |week| == DaysPerWeek
  {
    Or(Or(Or(Or(Or(Or(week[0], week[1] * 4), week[2] * 16), week[3] * 64),
      week[4] * 256), week[5] * 1024), week[6] * 4096)
  }

  /** The decoded days are the first seven two-bit fields of the word. */
  lemma DecodeIsUnpack(raw: nat)
    ensures Decode(raw) == Unpack(raw, DaysPerWeek)
  {
    forall d | 0 <= d < DaysPerWeek
      ensures Decode(raw)[d] == Unpack(raw, DaysPerWeek)[d]
    {
      UnpackField(raw, DaysPerWeek, d);
    }
  }

  /** The sum of the seven indices, each at its field's weight. */
  function WeekSum(w: seq<nat>): nat
    requires |w| == DaysPerWeek
  {
    w[0] + w[1] * 4 + w[2] * 16 + w[3] * 64 + w[4] * 256 + w[5] * 1024 + w[6] * 4096
  }

  /** For seven indices in 0..3 no two shifted indices share a bit, so or-ing them adds them. */
  lemma EncodeIsSum(w: seq<nat>)
    requires |w| == DaysPerWeek && AllTwoBit(w)
    ensures Encode(w) == WeekSum(w)
  {
    assert Pow4(1) == 4 && Pow4(2) == 16 && Pow4(3) == 64;
    assert Pow4(4) == 256 && Pow4(5) == 1024 && Pow4(6) == 4096;
    var a0 := w[0];
    OrField(a0, w[1], 1);
    var a1 := a0 + w[1] * 4;
    OrField(a1, w[2], 2);
    var a2 := a1 + w[2] * 16;
    OrField(a2, w[3], 3);
    var a3 := a2 + w[3] * 64;
    OrField(a3, w[4], 4);
    var a4 := a3 + w[4] * 256;
    OrField(a4, w[5], 5);
    var a5 := a4 + w[5] * 1024;
    OrField(a5, w[6], 6);
  }

  /** The weighted sum is the generic two-bit packing. */
  lemma WeekSumIsPack(w: seq<nat>)
    requires |w| == DaysPerWeek
    ensures WeekSum(w) == Pack(w)
  {
    assert w[6..] == [w[6]] + [];
    PackCons(w[6], []);
    assert w[5..] == [w[5]] + w[6..];
    PackCons(w[5], w[6..]);
    assert w[4..] == [w[4]] + w[5..];
    PackCons(w[4], w[5..]);
    assert w[3..] == [w[3]] + w[4..];
    PackCons(w[3], w[4..]);
    assert w[2..] == [w[2]] + w[3..];
    PackCons(w[2], w[3..]);
    assert w[1..] == [w[1]] + w[2..];
    PackCons(w[1], w[2..]);
    assert w == [w[0]] + w[1..];
    PackCons(w[0], w[1..]);
  }

  /**
    For seven indices in 0..3 the encoded word is the generic two-bit packing
    of the days, so it is at most 0x3FFF.
   */
  lemma EncodeIsPack(week: seq<nat>)
    requires |week| == DaysPerWeek && AllTwoBit(week)
    ensures Encode(week) == Pack(week)
    ensures Encode(week) <= WeeklyMax
  {
    EncodeIsSum(week);
    WeekSumIsPack(week);
    PackBound(week);
    assert Pow4(DaysPerWeek) == WeeklyMax + 1;
  }

  /** decode(encode(w)) == w for seven indices in 0..3. */
  lemma DecodeEncode(week: seq<nat>)
    requires |week| == DaysPerWeek && AllTwoBit(week)
    ensures Decode(Encode(week)) == week
  {
    EncodeIsPack(week);
    DecodeIsUnpack(Encode(week));
    UnpackPack(week);
  }

  /** encode(decode(x)) == x for every well-formed word. */
  lemma EncodeDecode(raw: nat)
    requires raw <= WeeklyMax
    ensures Encode(Decode(raw)) == raw
  {
    DecodeIsUnpack(raw);
    UnpackTwoBit(raw, DaysPerWeek);
    EncodeIsPack(Decode(raw));
    assert Pow4(DaysPerWeek) == WeeklyMax + 1;
    PackUnpack(raw, DaysPerWeek);
  }

  /** Bits 14 and above do not affect the decoded days. */
  lemma DecodeDropsHighBits(raw: nat)
    ensures Decode(raw) == Decode(raw % (WeeklyMax + 1))
  {
    DecodeIsUnpack(raw);
    DecodeIsUnpack(raw % (WeeklyMax + 1));
    assert Pow4(DaysPerWeek) == WeeklyMax + 1;
    UnpackDropsHighFields(raw, DaysPerWeek);
  }
}
